=== FILE: README.md ===
# Maestro orchestration core, in Dafny

This project models the orchestration core of curium-rocks/maestro: the
`Maestro` class (`src/maestro.ts`) and its configuration document
(`src/meastroConfig.ts`). A maestro wires data emitters to chroniclers. It
keeps two registries keyed by lower-cased id, one for emitters and one for
chroniclers. It also tracks the handles that `connect` returns, and it builds
its topology from a declarative document that it can write back.

The model is functional. One immutable `Maestro.State` record holds:

- both registries, each an insertion-ordered association list that behaves like a JS `Map`;
- the wiring: live subscriptions, tracked handles and a fresh-identity counter;
- a multiset of every call made on an entity (`dispose`, `disposeAsync`, `start`, `stop`, `stopPolling`, `serializeState`);
- the configuration snapshot and the constructor's options;
- the process-wide factory provider.

Each asynchronous operation returns `Run(state, out)`. A rejection therefore
keeps the effects that happened before it. For example, a failed `load` has
already cleaned up, and a failed `addEmitter` has already disposed the
previous emitter.

Modules, in dependency order:

- `Wrappers`: `Option` and `Result`.
- `Errors`: the ways an operation rejects.
- `Casing`: `toLowerCase`.
- `Config`: the document types and the fallback document.
- `Entities`: entities, their capabilities, and the calls made on them.
- `Registry`: the ordered maps.
- `Connections`: `attachEmitterToChronicler`, `connect`, `wrapDisposables`, handle disposal.
- `Factories`: factory registration and construction.
- `Maestro`: the state, the constructor, `cleanUpResources`, add and remove.
- `Loading`: `load`, its phases, `start` and `stop`.
- `Saving`: `createConfig`, `buildConfigObj`, `save`.

Behaviours of the code that the model keeps as written:

- `disposeOnRemove` is `options.disposeOnRemove || true`, so it is always true (`Maestro.OrTrue`).
- A handle over collections runs `d.dispose` without calling it (src/maestro.ts:224). Disposing it only untracks it, and every subscription stays live, including through `cleanUpResources`.
- The single x single handle deletes the inner link object, which was never tracked, instead of itself (src/maestro.ts:292). It severs its two subscriptions but stays tracked until the next cleanup.
- Replacing an emitter calls `dispose` and then `disposeAsync`, whichever are present. Replacing a chronicler calls only `dispose`, and a previous chronicler without `dispose` makes `addChronicler` reject.
- `createConnections` always passes arrays, so it always takes the many x many path. A declaration whose ids all fail to resolve still adds an empty handle.
- A recreated emitter without its own format settings is decoded under the settings held before the load. The loaded document is adopted only at the end (src/maestro.ts:377, 459).
- `save` writes chroniclers as serialized strings, and `load` rejects string chronicler payloads. A saved file with any chronicler therefore cannot be loaded back (`Saving.SavedChroniclersBlockReload`).

## Model

| member | source | states |
|---|---|---|
| Casing.SameKeyIffSameIgnoringCase | src/maestro.ts:569-571 | two ids produce the same registry key exactly when they have the same length and, position by position, the characters are equal or one is an ASCII capital and the other its lower-case letter |
| Casing.SameLetterIffLowerChar | src/maestro.ts:570 | two characters lower-case to the same character exactly when they are equal or one is a capital and the other its lower-case letter |
| Casing.LowerIsUnique | src/maestro.ts:569-571 | the lower-cased id is the only spelling of the id without capitals that matches it ignoring case |
| Casing.LowerIsCanonical | src/maestro.ts:569-571 | a key contains no upper-case letter, and lower-casing it again leaves it unchanged |
| Registry.CaseInsensitiveLookup | src/maestro.ts:390-393 | looking up two ids that match ignoring case finds the same entry, or nothing for both |
| Registry.Put | src/maestro.ts:561 | `Map.set` stores the entity under the key, leaves every other key's entry unchanged, appends a new key at the end, replaces an existing key in place, and keeps keys unique |
| Registry.Delete | src/maestro.ts:585 | `Map.delete` removes the key, leaves every other key unchanged, does nothing when the key is absent, keeps only entries of the original table, and keeps keys unique |
| Registry.DeleteKeepsOrder | src/maestro.ts:585 | with unique keys, deleting a present key leaves the other entries in their original order: the table with that one position cut out |
| Registry.DeleteUndoesAppend | src/maestro.ts:585 | deleting the key of an entry just appended under a fresh key gives back the original table |
| Registry.DeleteSize | src/maestro.ts:585 | with unique keys, deleting a present key shrinks the table by exactly one |
| Config.DefaultDocument | src/maestro.ts:115-134 | the fallback document declares no factories, entities or connections; its id is the uuid, its name and description are the uuid plus the fixed suffixes, and its settings are unencrypted "N/A" |
| Entities.FanOutReachesEachOnce | src/maestro.ts:336-350 | when entity identities are distinct, fanning a per-entity action over the registered entities makes exactly the calls that action makes for a given entity |
| Factories.Build | src/maestro.ts:459-461 | construction succeeds exactly when the type tag has a factory that does not reject; the product carries the description's id; a missing tag rejects with FactoryNotFound |
| Factories.RegisterAll | src/maestro.ts:426-445 | registration succeeds exactly when every descriptor's module resolves; on success exactly the named type tags are added; every entry comes from the prior catalog or a loaded module; when a descriptor's module is missing, registration stops there with FactoryLoadFailed, keeping the catalog that the descriptors before it produced |
| Factories.LastRegistrationWins | src/maestro.ts:429-434 | when a type tag is registered more than once, the last descriptor naming it decides its factory |
| Factories.RegisterAllKeepsOthers | src/maestro.ts:429-434 | a type tag that no descriptor names keeps its previous factory, or stays absent |
| Factories.RegisterFactories | src/maestro.ts:426-447 | the whole registration succeeds exactly when every emitter and chronicler descriptor resolves; the emitter descriptors register into the emitter catalog, and only when they all succeed do the chronicler descriptors register into the chronicler catalog; if an emitter descriptor fails, the chronicler catalog is left untouched |
| Connections.Pairs | src/maestro.ts:263-267 | the attached pairs are exactly every emitter of the first side with every chronicler of the second, and there are as many as the product of the sides' sizes |
| Connections.AttachAll | src/maestro.ts:237-247 | every emitter/chronicler pair gets a fresh link, in order, and each link adds exactly its data and status subscriptions |
| Connections.Connect | src/maestro.ts:255-298 | each call tracks exactly one new handle; the handle holds one link per emitter/chronicler pair, the i-th link joining the i-th pair under a fresh identity; only single x single forwards to its one link; new subscriptions are exactly those the handle's links own |
| Connections.ConnectLinksEveryPair | src/maestro.ts:255-298 | after `connect`, every emitter of the first argument feeds every chronicler of the second, and every new subscription joins one of those emitters to one of those chroniclers |
| Connections.ConnectFanOut | src/maestro.ts:255-298 | `connect` adds two subscriptions per emitter/chronicler pair, that is, twice the number of emitters times the number of chroniclers, a single side counting as one, grows the tracked set by one fresh handle, and keeps the wiring consistent |
| Connections.DisposeHandle | src/maestro.ts:221-229 | disposing a wrapping handle untracks it and severs nothing; disposing the single x single handle severs its link's subscriptions and leaves the tracked set unchanged |
| Connections.DisposeTwice | src/maestro.ts:221-229 | disposing a handle a second time has no further effect |
| Connections.ConnectThenDispose | src/maestro.ts:288-296 | disposing a fresh handle: in the collection cases every new subscription stays live and the tracked set returns to what it was; in the single x single case the subscriptions return to what they were and the handle stays tracked |
| Connections.Clear | src/maestro.ts:336-355 | the wiring part of cleanup empties the tracked set and keeps exactly the subscriptions that no tracked handle severs |
| Connections.ClearTwice | src/maestro.ts:336-355 | cleaning the wiring twice has no further effect |
| Connections.ClearAfterConnect | src/maestro.ts:336-355 | on a consistent wiring, cleanup right after `connect` severs both subscriptions of a single x single connection and keeps every subscription of a collection connection |
| Maestro.Create | src/maestro.ts:94-141 | a new maestro has empty registries and tracked set and is not applied; disposal on remove is on; with a file path the handlers are ignored, and the config is the parsed file or the fallback document; with a document there is no path and the given handlers are kept |
| Maestro.CleanUp | src/maestro.ts:336-356 | registries and tracked set become empty; the wiring is cleared as in `Connections.Clear`; every registered entity is torn down; nothing else changes |
| Maestro.CleanUpDisposesEachOnce | src/maestro.ts:306-331 | each registered entity gets exactly one `disposeAsync` if it has one, otherwise exactly one `dispose` if it has one, and exactly one `stop`, otherwise one `stopPolling` |
| Maestro.CleanUpTwice | src/maestro.ts:336-356 | a second cleanup changes nothing |
| Maestro.Key | src/maestro.ts:569-571 | `getKey` yields a key without capitals that matches the id (of the id or the entity) ignoring case, which by `Casing.LowerIsUnique` is the lower-cased id |
| Maestro.Admit | src/maestro.ts:546-561 | an object with `dispose` is stored as it is; a live object without `dispose` rejects, since it carries no type tag for the factory; a description is admitted exactly when the factory builds it, as the built entity, and otherwise rejects with the factory's error (FactoryNotFound for an unknown type tag); whatever is admitted carries the offered id |
| Maestro.EmitterReplaceCalls | src/maestro.ts:551-559 | replacing an emitter calls `dispose` once if present and `disposeAsync` once if present, only on that emitter |
| Maestro.AddEmitter | src/maestro.ts:544-562 | it succeeds exactly when the offer is admitted, and then the key holds the admitted emitter, otherwise it rejects with the admission error; other keys are unchanged; the previous emitter under the key gets the replace calls even when construction then fails; a failure leaves the registry unchanged; the size grows by one only for a new key; a live emitter with `dispose` is always stored, and under a fresh key it is appended at the end |
| Maestro.AddChronicler | src/maestro.ts:593-604 | it succeeds exactly when any previous chronicler under the key has `dispose` and the offer is admitted; a previous chronicler without `dispose` makes the call reject with nothing changed; otherwise it gets exactly one `dispose`; on success the key holds the admitted chronicler; other keys are unchanged; a failure leaves the registry unchanged |
| Maestro.RemoveEmitter | src/maestro.ts:578-587 | an absent key is a no-op; a present one gets one `dispose` and only that key is removed; a present one without `dispose` rejects and changes nothing |
| Maestro.RemoveChronicler | src/maestro.ts:612-621 | never rejects; an absent key is a no-op; a present one is disposed as in `cleanUpIfDisposable` and only that key is removed |
| Maestro.AddSameIdTwice | src/maestro.ts:545-561 | adding two emitters whose ids differ only in case leaves one entry, holding the second emitter, after exactly one `dispose` of the first |
| Maestro.AddThenRemoveEmitter | src/maestro.ts:544-587 | adding an emitter under a fresh id and then removing it by the same id in any case restores the registry, after exactly one `dispose` of it |
| Maestro.AddThenRemoveChronicler | src/maestro.ts:593-621 | adding a chronicler under a fresh id and then removing it by the same id in any case restores the registry, after it is cleaned up once |
| Loading.Fetch | src/maestro.ts:405-417 | the document comes from the file when a non-empty path is set, otherwise from the load handler; with neither, the load rejects with SourceMissing |
| Loading.Declared | src/maestro.ts:457-461 | an inline payload is its own description; a serialized emitter payload is decoded under its own settings or else the instance's; a serialized chronicler payload rejects |
| Loading.BuildAll | src/maestro.ts:455-462 | the batch succeeds exactly when every declaration constructs; the results follow the declarations in order; the first declaration's failure is the batch's failure |
| Loading.CreateEmitters | src/maestro.ts:453-466 | succeeds exactly when every emitter declaration constructs; a failure changes nothing; chroniclers, wiring and config are untouched; the only calls it makes are the disposals of replaced emitters |
| Loading.CreateChroniclers | src/maestro.ts:472-484 | the phase succeeds exactly when every declaration is inline and its factory constructs it, so any serialized payload makes it reject; a failure changes nothing; emitters, wiring and config are untouched; the only calls it makes are the disposals of replaced chroniclers |
| Loading.AddAllEmitters | src/maestro.ts:464 | adding the built emitters one by one leaves the chroniclers, wiring and config alone and invokes nothing on any object except `dispose` and `disposeAsync` on replaced emitters |
| Loading.AddAllEmittersAppends | src/maestro.ts:464 | built emitters with `dispose` and distinct, unregistered ids are each appended once, in order, and nothing is disposed |
| Loading.AddAllChroniclers | src/maestro.ts:482 | adding the built chroniclers one by one leaves the emitters, wiring and config alone and invokes nothing except `dispose` on replaced chroniclers |
| Loading.AddAllChroniclersAppends | src/maestro.ts:482 | built chroniclers with `dispose` and distinct, unregistered ids are each appended once, in order, and nothing is disposed |
| Loading.CreateEmittersRegistersEach | src/maestro.ts:453-466 | into an empty registry, a successful phase over declarations with distinct ids registers exactly one emitter per declaration, under its declared id lower-cased, in order |
| Loading.CreateChroniclersRegistersEach | src/maestro.ts:472-484 | the same for chroniclers |
| Loading.CreateEmittersCallsNothing | src/maestro.ts:453-466 | under the same hypotheses as `Loading.CreateEmittersRegistersEach`, no emitter is replaced, so the phase invokes nothing at all |
| Loading.CreateChroniclersCallsNothing | src/maestro.ts:472-484 | the same for chroniclers |
| Loading.ResolveIds | src/maestro.ts:389-395 | all ids resolve exactly when none is dropped, and then the i-th entity is the one registered under the i-th id lower-cased; none resolves exactly when the result is empty |
| Loading.ResolveIdsMembers | src/maestro.ts:389-395 | the resolved entities are exactly those that some declared id finds, case ignored |
| Loading.ResolveOne | src/maestro.ts:390-393 | one id resolves to the entity registered under it lower-cased, or to nothing |
| Loading.ResolveIdsAppend | src/maestro.ts:389-395 | ids resolve one by one in order: resolving a concatenation gives the concatenation of the results, so unknown ids are skipped without disturbing the order of the rest |
| Loading.ResolveIgnoresCase | src/maestro.ts:390-393 | id lists that match position by position ignoring case resolve to the same entities |
| Loading.ConnectAllCounts | src/maestro.ts:389-397 | each declaration tracks one more handle and adds two subscriptions per resolved emitter/chronicler pair |
| Loading.CreateConnections | src/maestro.ts:385-398 | no declarations change nothing; otherwise only the wiring changes, and it only grows; each declaration links every emitter it resolves to every chronicler it resolves; every new subscription joins an emitter and a chronicler resolved by one declaration; the tracked set grows by exactly one handle per declaration |
| Loading.ConnectAllLinksDeclared | src/maestro.ts:389-397 | every emitter/chronicler pair that one declaration resolves is linked after wiring |
| Loading.ConnectAllOnlyDeclared | src/maestro.ts:389-397 | wiring adds no subscription beyond the pairs that the declarations resolve |
| Loading.ConnectOneToOne | src/maestro.ts:385-398 | one declaration naming one registered emitter and one registered chronicler adds exactly two subscriptions and one handle |
| Loading.ConnectUnknownChroniclers | src/maestro.ts:385-398 | a declaration whose chroniclers all fail to resolve attaches nothing yet still tracks one handle |
| Loading.BuildAndWire | src/maestro.ts:366-377 | after registration, the remaining phases succeed exactly when every emitter declaration constructs and every chronicler declaration is inline and constructs; the document is adopted only on success; on success the wiring links, per declaration, every resolved emitter to every resolved chronicler, links nothing else, and tracks one more handle per declaration; a failure leaves config, wiring and chroniclers as they were; the provider is untouched; the only calls made are disposals of replaced entities |
| Loading.ApplyConfiguration | src/maestro.ts:363-378 | it succeeds exactly when every factory module resolves and then every emitter and chronicler declaration constructs through the extended catalogs; the document is adopted only on success; success implies every factory module resolved; a serialized chronicler payload makes it reject; on success the wiring realises the document's connections as for `Loading.BuildAndWire`; the provider keeps the registrations made, whether or not later phases fail; a failure leaves wiring and chroniclers as they were; the only calls made are disposals of replaced entities |
| Loading.Load | src/maestro.ts:403-420 | it succeeds exactly when a document is fetched and it applies; cleanup always runs first, even when no source exists; success adopts the fetched document, marks it applied, and leaves the wiring realising exactly the document's connections on top of the cleared wiring, with one tracked handle per connection; the provider keeps the fetched document's factory registrations; a failure keeps the old snapshot and leaves no chroniclers and no tracked handles; every call beyond the teardown of the previously registered entities is a `dispose` or `disposeAsync` of a replaced entity |
| Loading.LoadRegistersEach | src/maestro.ts:363-378 | a successful load of a document with case-distinct ids registers exactly one emitter and one chronicler per declaration, in declaration order |
| Loading.LoadCallsOnlyTeardown | src/maestro.ts:403-420 | under the same hypotheses, a successful load invokes exactly the teardown of the previously registered entities and nothing more |
| Loading.LoadEmptyDocument | src/maestro.ts:403-420 | a fetched document that declares nothing loads, leaving empty registries and tracked set, with the document adopted |
| Loading.LoadLinksOnePair | src/maestro.ts:363-398 | one factory module, one inline emitter, one inline chronicler and one connection naming both in any case: the load succeeds, registers exactly those two, and links the emitter to the chronicler through one tracked handle |
| Loading.LoadDecodesWithPriorSettings | src/maestro.ts:459 | an emitter recreated without its own settings is decoded under the pre-load settings, so a state that decodes only under the document's settings fails the load |
| Loading.ServiceCall | src/maestro.ts:179-193 | with a configuration applied, only the call counters change, by one `start` (or `stop`) fan-out over the registered entities; otherwise it loads first, rejects exactly as the load does, and after a successful load adds that fan-out over the entities the load registered; success leaves the configuration applied |
| Loading.StartStopEachServiceOnce | src/maestro.ts:179-192 | whether or not a configuration was applied before, once the state is ready (the initial load, if any, succeeded) `start` (or `stop`) is called exactly once on each entity registered there that has both `start` and `stop`, and never on any other registered entity |
| Loading.StartDoesNotReload | src/maestro.ts:180-182 | a second `start` after a successful one leaves the registries, wiring and config unchanged |
| Saving.BuildConfigObj | src/maestro.ts:491-517 | the document keeps the snapshot's id, name, description, factories and settings; it has no connections; it has one serialized entry per registered emitter and chronicler, in order, each tagged with the snapshot's settings |
| Saving.Save | src/maestro.ts:501-537 | it writes to the file when a non-empty path is set, otherwise to the save handler; with neither it rejects with SinkMissing and changes nothing; on success it asks every registered emitter and chronicler for its state once, and the only change is those serialize calls |
| Saving.SaveSerializesEachOnce | src/maestro.ts:501-505 | each registered entity is asked for its state exactly once |
| Saving.FreshDefaultRoundTrip | src/maestro.ts:115-134 | a maestro whose file could not be read saves back exactly the fallback document |
| Saving.SaveThenLoadDropsConnections | src/maestro.ts:501-517 | reloading a saved file keeps the identity, settings and factories, but no connection is restored |
| Saving.SavedChroniclersBlockReload | src/maestro.ts:477-479 | a saved file with any chronicler cannot be loaded back |
| Saving.SaveAfterLoadMirrorsDocument | src/maestro.ts:501-517 | saving right after a successful load writes the loaded identity, settings and factories, with one entry per declared entity |
| Saving.EmptyPathRejectsLoadAndSave | src/maestro.ts:403-417 | an empty file path counts as no path and the handlers are ignored, so both `load` and `save` reject |

## Left out

- File reads and writes, `mkdir`, `JSON.parse` and `JSON.stringify` are I/O. The parsed file and the load handler's answer are inputs (`Loading.World`), and `save` returns the sink and document it would write.
- Dynamic `require` and the `ProviderSingleton` are foreign code. They are a map from (package, export path) to a factory, and a map from type tag to a factory whose construction succeeds with known capabilities or rejects.
- Recreating an emitter from serialized state is foreign code. It is a map from (state string, format settings) to a description.
- `isIterable` (src/maestro.ts:14-21) is replaced by the `Connections.Side` sum type, `Single | Many`. A string or a `Map` passed to `connect` is not modelled.
- Logging and the warnings the constructor emits have no behaviour.
- `crypto.randomUUID` is a parameter of `Maestro.Create`.
- `serializeState` contents come from the entity's own code. They are a function parameter of `Saving`.
- The public `disposeAsync` is `cleanUpResources` alone, so it is modelled by `Maestro.CleanUp`.
- Event delivery to `saveRecord` is left out. Subscriptions are tuples only.
- Promise concurrency is modelled sequentially. The `addEmitter`/`addChronicler` calls after construction (src/maestro.ts:464, 482) are not awaited, so a rejection there is unhandled and by default ends a Node process (version 15 or later). The model instead runs them in order, keeps the state each leaves, and continues; it does not model process termination.
- `Connections.Side.Many` holds a sequence, which can be walked any number of times. src/maestro.ts:264 calls `Array.from` on the chronicler collection once per emitter. A one-shot iterator, such as the `Map.values()` that the `emitters` and `chroniclers` getters return (src/maestro.ts:79-88), would be empty after the first emitter, so only that emitter would be linked. One-shot iterables are not modelled.
- Loading.BuildAll: when several constructions reject, `Promise.all` reports whichever settles first. The model reports the first failing declaration in list order.
- Entity-side failures of `dispose`, `start`, `stop` and `serializeState` are left out. Each call is recorded and assumed to succeed.
- A synchronous throw from `removeEmitter` is modelled as a rejected result.
- Casing.Lower folds only ASCII letters, whereas `toLowerCase` folds all of Unicode.
- Missing or malformed document fields, and JavaScript values of the wrong type, are not modelled. The Dafny types guarantee every field is present.
- The many-link handle's unreachable inner links are not modelled as separate objects. Since the handle never disposes them, they are visible only through the subscriptions they own.
- Factories.Build: a built entity carries the id of the description it was built from. The factories are foreign code that this model does not see, so that is an assumption about them, and `Loading.LoadRegistersEach` and `Loading.CreateEmittersRegistersEach` rest on it.
- Maestro.Admit: a live object without `dispose` is taken to reject. The foreign `buildEmitter`/`buildChronicler` would receive it, and it carries no type tag; that outcome is an assumption about those factories.
- `isService` is taken to mean that the entity has both `start` and `stop`. Its definition lives in a dependency that is not part of this model.
- The source's tests are `expect(false)` placeholders. The call counters mirror the test doubles' `disposeCallCount` and `serializeCount`.

=== FILE: casing.dfy ===
/**
 * Identifier canonicalisation: registries are keyed by the lower-cased id.
 * Only the ASCII letters are folded.
 */
module Casing {

  /** An ASCII capital letter. */
  predicate IsUpper(c: char) {
    'A' <= c <= 'Z'
  }

  /** The lower-case letter of a capital sits 32 code points above it; nothing else moves. */
  function LowerChar(c: char): (r: char)
    ensures IsUpper(c) ==> r as int == c as int + 32
    ensures !IsUpper(c) ==> r == c
  {
    if IsUpper(c) then (c as int + 32) as char else c
  }

  /** `toLowerCase`, character by character. */
  function Lower(s: string): (r: string)
    ensures |r| == |s|
    ensures forall i :: 0 <= i < |s| ==> r[i] == LowerChar(s[i])
  {
    if s == [] then [] else [LowerChar(s[0])] + Lower(s[1..])
  }

  /** The two characters are equal, or one is a capital and the other its lower-case letter. */
  predicate SameLetter(x: char, y: char) {
    || x == y
    || (IsUpper(x) && y as int == x as int + 32)
    || (IsUpper(y) && x as int == y as int + 32)
  }

  /** The two strings spell the same word when the case of ASCII letters is ignored. */
  predicate SameIgnoringCase(a: string, b: string) {
    |a| == |b| && forall i :: 0 <= i < |a| ==> SameLetter(a[i], b[i])
  }

  /** No upper-case ASCII letter occurs in `s`. */
  predicate IsLower(s: string) {
    forall i :: 0 <= i < |s| ==> !IsUpper(s[i])
  }

  lemma SameLetterIffLowerChar(x: char, y: char)
    ensures LowerChar(x) == LowerChar(y) <==> SameLetter(x, y)
  {
  }

  /** Two ids address the same registry entry exactly when they differ only in case. */
  lemma SameKeyIffSameIgnoringCase(a: string, b: string)
    ensures Lower(a) == Lower(b) <==> SameIgnoringCase(a, b)
  {
    if |a| == |b| {
      forall i | 0 <= i < |a| ensures LowerChar(a[i]) == LowerChar(b[i]) <==> SameLetter(a[i], b[i]) {
        SameLetterIffLowerChar(a[i], b[i]);
      }
      if SameIgnoringCase(a, b) {
        assert forall i :: 0 <= i < |a| ==> Lower(a)[i] == Lower(b)[i];
      }
    } else {
      assert |Lower(a)| != |Lower(b)|;
    }
  }

  /** A key is already canonical: lowering it again changes nothing. */
  lemma LowerIsCanonical(s: string)
    ensures IsLower(Lower(s))
    ensures Lower(Lower(s)) == Lower(s)
  {
  }

  /**
   * The lower-cased id is the only all-lower-case spelling of the id: any key
   * that has no capital and matches `s` ignoring case is `Lower(s)`.
   */
  lemma LowerIsUnique(s: string, k: string)
    requires IsLower(k) && SameIgnoringCase(k, s)
    ensures k == Lower(s)
  {
    SameKeyIffSameIgnoringCase(k, s);
    assert forall i :: 0 <= i < |k| ==> Lower(k)[i] == k[i];
  }
}

=== FILE: config.dfy ===
/**
 * The declarative configuration document (src/meastroConfig.ts) and the
 * fallback document the orchestrator synthesises when its file cannot be read.
 */
module Config {

  import opened Wrappers

  /** `IFormatSettings`: whether serialized state is encrypted, and its format (`type`). */
  datatype FormatSettings = FormatSettings(encrypted: bool, format: string)

  /**
   * An inline emitter or chronicler description: the factory type tag and the
   * classifier fields. Type-specific properties are opaque to the orchestrator.
   */
  datatype Description = Description(typeTag: string, id: string, name: string, description: string)

  /** The `config` field of an entity declaration: serialized state or an inline description. */
  datatype Payload = Serialized(text: string) | Inline(desc: Description)

  /** `IEmitterConfig` and `IChroniclerConfig`, which share one shape. */
  datatype EntityConfig = EntityConfig(config: Payload, formatSettings: Option<FormatSettings>)

  /** `IConnection`: two independent id lists, either possibly empty. */
  datatype Connection = Connection(emitters: seq<string>, chroniclers: seq<string>)

  /** `IFactoryConfig`: where a factory constructor lives and the type tag it serves. */
  datatype FactoryConfig = FactoryConfig(packageName: string, factoryPath: string, factoryType: string)

  /** `IFactoryMap`. */
  datatype FactoryMap = FactoryMap(emitter: seq<FactoryConfig>, chronicler: seq<FactoryConfig>)

  /** `IMaestroConfig`, with the `IClassifier` fields inlined. */
  datatype MaestroConfig = MaestroConfig(
    id: string,
    name: string,
    description: string,
    factories: FactoryMap,
    emitters: seq<EntityConfig>,
    chroniclers: seq<EntityConfig>,
    connections: seq<Connection>,
    formatSettings: FormatSettings)

  /** The settings of the synthesised document: unencrypted, format "N/A". */
  const DefaultSettings := FormatSettings(false, "N/A")

  /** A document declaring nothing: no factories, entities or connections. */
  predicate DeclaresNothing(doc: MaestroConfig) {
    && doc.factories == FactoryMap([], [])
    && doc.emitters == []
    && doc.chroniclers == []
    && doc.connections == []
  }

  /** The constructor's fallback document for a freshly generated identifier `uuid`. */
  function DefaultDocument(uuid: string): (doc: MaestroConfig)
    ensures DeclaresNothing(doc)
    ensures doc.id == uuid
    ensures doc.name == uuid + "-default-name" && doc.description == uuid + "-default-desc"
    ensures doc.formatSettings == DefaultSettings
  {
    MaestroConfig(uuid, uuid + "-default-name", uuid + "-default-desc",
                  FactoryMap([], []), [], [], [], DefaultSettings)
  }
}

=== FILE: connections.dfy ===
/**
 * Links between emitters and chroniclers: `attachEmitterToChronicler`,
 * `connect` with its four fan-out cases, `wrapDisposables`, disposing the
 * handle `connect` returns, and the tracked set of handles.
 */
module Connections {

  import opened Entities

  /** One endpoint argument of `connect`: a single entity or an iterable of them (`isIterable`). */
  datatype Side = Single(one: Entity) | Many(all: seq<Entity>)

  datatype Stream = Data | Status

  /** `chronicler.saveRecord` subscribed to one event stream of `emitter`, on behalf of link `link`. */
  datatype Sub = Sub(link: Oid, emitter: Oid, chronicler: Oid, stream: Stream)

  /** The disposable `attachEmitterToChronicler` returns: it owns a data and a status subscription. */
  datatype Link = Link(lid: Oid, emitter: Oid, chronicler: Oid)

  /**
   * The handle `connect` returns. In the collection cases it wraps the links
   * (`wrapDisposables`); in the single x single case it forwards to the one link.
   */
  datatype Body = Wrapped(links: seq<Link>) | Direct(link: Link)

  datatype Handle = Handle(hid: Oid, body: Body)

  /** A member of the tracked disposable set: a handle, or (never added, but deleted) a bare link. */
  datatype Disposable = HandleObj(handle: Handle) | LinkObj(link: Link)

  /** The live subscriptions, the tracked disposables, and the next fresh object identity. */
  datatype Wiring = Wiring(subs: set<Sub>, tracked: set<Disposable>, next: Oid)

  /**
   * Identities handed out so far are below `next`, and only handles are ever
   * tracked, together with (for a forwarding handle) the link they forward to.
   */
  predicate Valid(w: Wiring) {
    && (forall s :: s in w.subs ==> s.link < w.next)
    && (forall d :: d in w.tracked ==>
          && d.HandleObj? && d.handle.hid < w.next
          && (d.handle.body.Direct? ==> d.handle.body.link.lid < w.next))
  }

  function LinkSubs(l: Link): set<Sub> {
    {Sub(l.lid, l.emitter, l.chronicler, Data), Sub(l.lid, l.emitter, l.chronicler, Status)}
  }

  function SubsOf(ls: seq<Link>): set<Sub> {
    if ls == [] then {} else LinkSubs(ls[0]) + SubsOf(ls[1..])
  }

  /** The entities one side of `connect` stands for, in iteration order. */
  function Members(s: Side): seq<Entity> {
    match s
    case Single(e) => [e]
    case Many(all) => all
  }

  /** How many entities one side of `connect` stands for. */
  function Size(s: Side): nat {
    |Members(s)|
  }

  function Oids(es: seq<Entity>): set<Oid> {
    set e | e in es :: e.oid
  }

  /** One emitter paired with each chronicler in turn. */
  function Row(e: Entity, cs: seq<Entity>): (r: seq<(Entity, Entity)>)
    ensures |r| == |cs|
    ensures forall p :: p in r <==> p.0 == e && p.1 in cs
  {
    var r := seq(|cs|, j requires 0 <= j < |cs| => (e, cs[j]));
    RowMembers(e, cs, r);
    r
  }

  lemma RowMembers(e: Entity, cs: seq<Entity>, r: seq<(Entity, Entity)>)
    requires |r| == |cs| && forall j :: 0 <= j < |cs| ==> r[j] == (e, cs[j])
    ensures forall p :: p in r <==> p.0 == e && p.1 in cs
  {
  }

  /** Every emitter of `es` paired with every chronicler of `cs`, emitter-major. */
  function Product(es: seq<Entity>, cs: seq<Entity>): (r: seq<(Entity, Entity)>)
    ensures |r| == |es| * |cs|
    ensures forall p :: p in r <==> p.0 in es && p.1 in cs
  {
    if es == [] then []
    else
      var row := Row(es[0], cs);
      var rest := Product(es[1..], cs);
      assert |es| * |cs| == |cs| + |es[1..]| * |cs|;
      assert forall x :: x in es <==> x == es[0] || x in es[1..];
      row + rest
  }

  /**
   * The (emitter, chronicler) pairs `connect` attaches, in the order it
   * attaches them: each emitter in turn with every chronicler.
   */
  function Pairs(es: Side, cs: Side): (r: seq<(Entity, Entity)>)
    ensures |r| == Size(es) * Size(cs)
    ensures forall p :: p in r <==> p.0 in Members(es) && p.1 in Members(cs)
  {
    Product(Members(es), Members(cs))
  }

  datatype Attached = Attached(wiring: Wiring, link: Link)

  /** `attachEmitterToChronicler`: subscribe the chronicler to the emitter's data and status streams. */
  function Attach(w: Wiring, e: Entity, c: Entity): (r: Attached)
    ensures r.link == Link(w.next, e.oid, c.oid)
    ensures r.wiring.subs == w.subs + LinkSubs(r.link)
    ensures r.wiring.tracked == w.tracked && r.wiring.next == w.next + 1
    ensures Valid(w) ==> Valid(r.wiring) && |r.wiring.subs| == |w.subs| + 2
  {
    var l := Link(w.next, e.oid, c.oid);
    assert Valid(w) ==> LinkSubs(l) !! w.subs;
    Attached(Wiring(w.subs + LinkSubs(l), w.tracked, w.next + 1), l)
  }

  datatype AttachedAll = AttachedAll(wiring: Wiring, links: seq<Link>)

  /** Attach every pair in order; link `i` gets identity `w.next + i`. */
  function AttachAll(w: Wiring, pairs: seq<(Entity, Entity)>): (r: AttachedAll)
    ensures |r.links| == |pairs|
    ensures forall i :: 0 <= i < |pairs| ==> r.links[i] == Link(w.next + i, pairs[i].0.oid, pairs[i].1.oid)
    ensures r.wiring.subs == w.subs + SubsOf(r.links)
    ensures r.wiring.tracked == w.tracked && r.wiring.next == w.next + |pairs|
    ensures Valid(w) ==> Valid(r.wiring) && |r.wiring.subs| == |w.subs| + 2 * |pairs|
    decreases |pairs|
  {
    if pairs == [] then AttachedAll(w, [])
    else
      var a := Attach(w, pairs[0].0, pairs[0].1);
      var rest := AttachAll(a.wiring, pairs[1..]);
      var links := [a.link] + rest.links;
      assert links[1..] == rest.links;
      AttachedAll(rest.wiring, links)
  }

  datatype Connected = Connected(wiring: Wiring, handle: Handle)

  /** The links a handle stands for: all it wraps, or the one it forwards to. */
  function LinksOf(h: Handle): seq<Link> {
    match h.body
    case Wrapped(links) => links
    case Direct(l) => [l]
  }

  /**
   * `connect`: attach every emitter of `es` to every chronicler of `cs`,
   * track one new handle for the whole call and return it.
   */
  function Connect(w: Wiring, es: Side, cs: Side): (r: Connected)
    ensures r.wiring.tracked == w.tracked + {HandleObj(r.handle)}
    ensures r.handle.body.Direct? <==> es.Single? && cs.Single?
    ensures es.Single? && cs.Single? ==>
              r.handle.body.link.emitter == es.one.oid && r.handle.body.link.chronicler == cs.one.oid
    ensures |LinksOf(r.handle)| == |Pairs(es, cs)|
    ensures forall i :: 0 <= i < |Pairs(es, cs)| ==>
              LinksOf(r.handle)[i] == Link(w.next + i, Pairs(es, cs)[i].0.oid, Pairs(es, cs)[i].1.oid)
    ensures r.wiring.subs == w.subs + Severable(r.handle)
    ensures w.next <= r.handle.hid < r.wiring.next
  {
    var a := AttachAll(w, Pairs(es, cs));
    var body := if es.Single? && cs.Single? then Direct(a.links[0]) else Wrapped(a.links);
    assert body.Direct? ==> a.links == [a.links[0]];
    var h := Handle(a.wiring.next, body);
    Connected(Wiring(a.wiring.subs, a.wiring.tracked + {HandleObj(h)}, a.wiring.next + 1), h)
  }

  /** Emitter `e` feeds chronicler `c` through some link: both its streams are subscribed. */
  ghost predicate Linked(w: Wiring, e: Oid, c: Oid) {
    exists l :: Sub(l, e, c, Data) in w.subs && Sub(l, e, c, Status) in w.subs
  }

  lemma {:induction false} SubsOfHas(ls: seq<Link>, i: nat)
    requires i < |ls|
    ensures LinkSubs(ls[i]) <= SubsOf(ls)
    decreases |ls|
  {
    if i > 0 {
      assert ls[1..][i - 1] == ls[i];
      SubsOfHas(ls[1..], i - 1);
    }
  }

  lemma {:induction false} SubsOfFrom(ls: seq<Link>, s: Sub) returns (i: nat)
    requires s in SubsOf(ls)
    ensures i < |ls| && s in LinkSubs(ls[i])
    decreases |ls|
  {
    if s in LinkSubs(ls[0]) {
      i := 0;
    } else {
      var j := SubsOfFrom(ls[1..], s);
      i := j + 1;
    }
  }

  /**
   * Fresh links, one per pair and numbered from `w.next`, whose subscriptions
   * are added to `w`: each pair is linked, and every added subscription joins
   * the two ends of some pair.
   */
  lemma LinksJoinPairs(w: Wiring, ps: seq<(Entity, Entity)>, h: Handle, subs: set<Sub>)
    requires |LinksOf(h)| == |ps|
    requires forall i :: 0 <= i < |ps| ==> LinksOf(h)[i] == Link(w.next + i, ps[i].0.oid, ps[i].1.oid)
    requires subs == w.subs + Severable(h)
    ensures forall i :: 0 <= i < |ps| ==>
              Sub(w.next + i, ps[i].0.oid, ps[i].1.oid, Data) in subs && Sub(w.next + i, ps[i].0.oid, ps[i].1.oid, Status) in subs
    ensures forall s :: s in subs && s !in w.subs ==>
              exists i :: 0 <= i < |ps| && s.emitter == ps[i].0.oid && s.chronicler == ps[i].1.oid
  {
    var ls := LinksOf(h);
    forall i | 0 <= i < |ps|
      ensures Sub(w.next + i, ps[i].0.oid, ps[i].1.oid, Data) in subs && Sub(w.next + i, ps[i].0.oid, ps[i].1.oid, Status) in subs
    {
      SubsOfHas(ls, i);
    }
    forall s | s in subs && s !in w.subs
      ensures exists i :: 0 <= i < |ps| && s.emitter == ps[i].0.oid && s.chronicler == ps[i].1.oid
    {
      var i := SubsOfFrom(ls, s);
      assert s.emitter == ps[i].0.oid;
    }
  }

  /**
   * `connect` links every emitter of its first argument to every chronicler
   * of its second, and every subscription it adds joins one of those
   * emitters to one of those chroniclers.
   */
  lemma ConnectLinksEveryPair(w: Wiring, es: Side, cs: Side)
    ensures var r := Connect(w, es, cs);
            forall e, c :: e in Members(es) && c in Members(cs) ==> Linked(r.wiring, e.oid, c.oid)
    ensures var r := Connect(w, es, cs);
            forall s :: s in r.wiring.subs && s !in w.subs ==>
              s.emitter in Oids(Members(es)) && s.chronicler in Oids(Members(cs))
  {
    var r := Connect(w, es, cs);
    var ps := Pairs(es, cs);
    LinksJoinPairs(w, ps, r.handle, r.wiring.subs);
    forall e, c | e in Members(es) && c in Members(cs) ensures Linked(r.wiring, e.oid, c.oid) {
      assert (e, c) in ps;
      var i :| 0 <= i < |ps| && ps[i] == (e, c);
      assert Sub(w.next + i, e.oid, c.oid, Data) in r.wiring.subs;
    }
    forall s | s in r.wiring.subs && s !in w.subs
      ensures s.emitter in Oids(Members(es)) && s.chronicler in Oids(Members(cs))
    {
      var i :| 0 <= i < |ps| && s.emitter == ps[i].0.oid && s.chronicler == ps[i].1.oid;
      assert ps[i] in ps;
    }
  }

  /**
   * The fan-out of one `connect` call: two subscriptions per attached pair,
   * one pair per emitter and chronicler (a single endpoint counting as one),
   * one new tracked handle.
   */
  lemma ConnectFanOut(w: Wiring, es: Side, cs: Side)
    requires Valid(w)
    ensures var r := Connect(w, es, cs);
            && Valid(r.wiring)
            && HandleObj(r.handle) !in w.tracked
            && |r.wiring.tracked| == |w.tracked| + 1
            && |r.wiring.subs| == |w.subs| + 2 * (Size(es) * Size(cs))
  {
    var ps := Pairs(es, cs);
    var a := AttachAll(w, ps);
    var r := Connect(w, es, cs);
    assert r.wiring.subs == a.wiring.subs && r.handle.hid == a.wiring.next;
    assert |a.wiring.subs| == |w.subs| + 2 * |ps|;
  }

  /** Every subscription the links under a handle own, whether or not disposing it severs them. */
  function Severable(h: Handle): set<Sub> {
    SubsOf(LinksOf(h))
  }

  /**
   * The subscriptions that calling `dispose` on a tracked object severs. A
   * wrapping handle severs none: it evaluates `d.dispose` without calling it.
   */
  function Severs(d: Disposable): set<Sub> {
    match d
    case HandleObj(Handle(_, Wrapped(_))) => {}
    case HandleObj(Handle(_, Direct(l))) => LinkSubs(l)
    case LinkObj(l) => LinkSubs(l)
  }

  /**
   * Calling `dispose` on a handle `connect` returned. A wrapping handle deletes
   * itself from the tracked set; the single x single handle severs its link and
   * deletes the inner link object, which is not tracked.
   */
  function DisposeHandle(w: Wiring, h: Handle): (r: Wiring)
    ensures r.subs == w.subs - Severs(HandleObj(h))
    ensures r.next == w.next
    ensures h.body.Wrapped? ==> r.tracked == w.tracked - {HandleObj(h)}
    ensures Valid(w) ==> Valid(r) && (h.body.Direct? ==> r.tracked == w.tracked)
  {
    match h.body
    case Wrapped(_) => Wiring(w.subs, w.tracked - {HandleObj(h)}, w.next)
    case Direct(l) => Wiring(w.subs - LinkSubs(l), w.tracked - {LinkObj(l)}, w.next)
  }

  /** Disposing a handle twice has no further effect. */
  lemma DisposeTwice(w: Wiring, h: Handle)
    ensures DisposeHandle(DisposeHandle(w, h), h) == DisposeHandle(w, h)
  {
  }

  /**
   * Disposing what `connect` just returned: a handle over a collection leaves
   * every new subscription live and only untracks itself; the single x single
   * handle severs exactly its two subscriptions and stays tracked.
   */
  lemma ConnectThenDispose(w: Wiring, es: Side, cs: Side)
    requires Valid(w)
    ensures var c := Connect(w, es, cs);
            var d := DisposeHandle(c.wiring, c.handle);
            if es.Single? && cs.Single? then
              d.subs == w.subs && d.tracked == w.tracked + {HandleObj(c.handle)} && |d.subs| + 2 == |c.wiring.subs|
            else
              d.subs == c.wiring.subs && d.tracked == w.tracked
  {
    var c := Connect(w, es, cs);
    ConnectFanOut(w, es, cs);
    if es.Single? && cs.Single? {
      var l := c.handle.body.link;
      assert Severable(c.handle) == LinkSubs(l) by {
        assert LinksOf(c.handle) == [l];
        assert SubsOf([l]) == LinkSubs(l) + SubsOf([]);
      }
      assert l.lid == w.next;
    }
    DisposeNewHandle(w, c);
  }

  /** Disposing a handle that was just added, over subscriptions that were just added. */
  lemma DisposeNewHandle(w: Wiring, c: Connected)
    requires Valid(w)
    requires HandleObj(c.handle) !in w.tracked
    requires c.wiring.tracked == w.tracked + {HandleObj(c.handle)}
    requires c.wiring.subs == w.subs + Severable(c.handle)
    requires c.handle.body.Direct? ==> Severable(c.handle) == LinkSubs(c.handle.body.link)
    requires c.handle.body.Direct? ==> c.handle.body.link.lid == w.next
    ensures var d := DisposeHandle(c.wiring, c.handle);
            if c.handle.body.Direct? then
              d.subs == w.subs && d.tracked == c.wiring.tracked && |d.subs| + 2 == |c.wiring.subs|
            else
              d.subs == c.wiring.subs && d.tracked == w.tracked
  {
    if c.handle.body.Direct? {
      assert LinkSubs(c.handle.body.link) !! w.subs;
    }
  }

  /**
   * The wiring part of `cleanUpResources`: every tracked object is disposed,
   * then the tracked set is cleared.
   */
  function Clear(w: Wiring): (r: Wiring)
    ensures r.tracked == {} && r.next == w.next
    ensures r.subs <= w.subs
    ensures forall s :: s in w.subs ==> (s in r.subs <==> forall d :: d in w.tracked ==> s !in Severs(d))
    ensures Valid(w) ==> Valid(r)
  {
    Wiring(set s | s in w.subs && forall d :: d in w.tracked ==> s !in Severs(d), {}, w.next)
  }

  /** Clearing twice has no further effect. */
  lemma ClearTwice(w: Wiring)
    ensures Clear(Clear(w)) == Clear(w)
  {
  }

  /**
   * Clearing after a `connect` over collections leaves all of its subscriptions
   * live; after a single x single `connect` it severs both of them.
   */
  lemma ClearAfterConnect(w: Wiring, es: Side, cs: Side)
    requires Valid(w)
    ensures var c := Connect(w, es, cs);
            var s := Clear(c.wiring).subs;
            if es.Single? && cs.Single? then s !! Severable(c.handle)
            else Severable(c.handle) <= s
  {
    var c := Connect(w, es, cs);
    FreshLinksSubs(w, LinksOf(c.handle));
    if es.Single? && cs.Single? {
      var l := c.handle.body.link;
      assert Severable(c.handle) == LinkSubs(l) by {
        assert LinksOf(c.handle) == [l];
        assert SubsOf([l]) == LinkSubs(l) + SubsOf([]);
      }
    }
    ClearNewHandle(w, c);
  }

  /** Subscriptions of links numbered from `w.next` on are all newer than `w`. */
  lemma FreshLinksSubs(w: Wiring, ls: seq<Link>)
    requires forall i :: 0 <= i < |ls| ==> ls[i].lid == w.next + i
    ensures forall x :: x in SubsOf(ls) ==> x.link >= w.next
  {
    forall x | x in SubsOf(ls) ensures x.link >= w.next {
      var i := SubsOfFrom(ls, x);
    }
  }

  /** Clearing right after a handle and its subscriptions were added. */
  lemma ClearNewHandle(w: Wiring, c: Connected)
    requires Valid(w)
    requires forall x :: x in Severable(c.handle) ==> x.link >= w.next
    requires c.wiring.tracked == w.tracked + {HandleObj(c.handle)}
    requires c.wiring.subs == w.subs + Severable(c.handle)
    requires c.handle.body.Direct? ==> Severable(c.handle) == LinkSubs(c.handle.body.link)
    ensures var s := Clear(c.wiring).subs;
            if c.handle.body.Direct? then s !! Severable(c.handle)
            else Severable(c.handle) <= s
  {
    assert HandleObj(c.handle) in c.wiring.tracked;
  }
}

=== FILE: entities.dfy ===
/**
 * Live emitters and chroniclers as opaque records: an object identity, the
 * classifier id, and the capabilities the orchestrator probes for. What the
 * orchestrator does to them is recorded as calls, whose multiplicities are the
 * call counters of a test double.
 */
module Entities {

  /** Object identity. */
  type Oid = nat

  /** The methods an entity offers; `start` and `stop` together make it a service. */
  datatype Caps = Caps(dispose: bool, disposeAsync: bool, start: bool, stop: bool, stopPolling: bool)

  datatype Entity = Entity(oid: Oid, id: string, caps: Caps)

  datatype Op = Dispose | DisposeAsync | Start | Stop | StopPolling | Serialize

  /** One invocation of method `op` on object `target`. */
  datatype Call = Call(target: Oid, op: Op)

  /** A disposal call: `dispose` or `disposeAsync`. */
  predicate IsDisposal(c: Call) {
    c.op == Dispose || c.op == DisposeAsync
  }

  /**
   * `after` grows `before` by disposal calls only: every call it adds is a
   * `dispose` or a `disposeAsync`.
   */
  ghost predicate OnlyDisposalsAdded(before: multiset<Call>, after: multiset<Call>) {
    && before <= after
    && forall c :: c in after - before ==> IsDisposal(c)
  }

  lemma OnlyDisposalsChain(a: multiset<Call>, b: multiset<Call>, c: multiset<Call>)
    requires OnlyDisposalsAdded(a, b) && OnlyDisposalsAdded(b, c)
    ensures OnlyDisposalsAdded(a, c)
  {
  }

  /** The service capability probe (`isService`). */
  predicate IsService(e: Entity) {
    e.caps.start && e.caps.stop
  }

  /** `cleanUpIfDisposable`: asynchronous disposal is preferred over synchronous disposal. */
  function CleanUpIfDisposable(e: Entity): multiset<Call> {
    if e.caps.disposeAsync then multiset{Call(e.oid, DisposeAsync)}
    else if e.caps.dispose then multiset{Call(e.oid, Dispose)}
    else multiset{}
  }

  /** `stopIfStoppable`: `stop` when present, else `stopPolling` when present. */
  function StopIfStoppable(e: Entity): multiset<Call> {
    if e.caps.stop then multiset{Call(e.oid, Stop)}
    else if e.caps.stopPolling then multiset{Call(e.oid, StopPolling)}
    else multiset{}
  }

  /** Everything `cleanUpResources` does to one entity. */
  function Teardown(e: Entity): multiset<Call> {
    CleanUpIfDisposable(e) + StopIfStoppable(e)
  }

  /** What `start()` does to one entity. */
  function StartCall(e: Entity): multiset<Call> {
    if IsService(e) then multiset{Call(e.oid, Start)} else multiset{}
  }

  /** What `stop()` does to one entity. */
  function StopCall(e: Entity): multiset<Call> {
    if IsService(e) then multiset{Call(e.oid, Stop)} else multiset{}
  }

  /** What `buildConfigObj` does to one entity. */
  function SerializeCall(e: Entity): multiset<Call> {
    multiset{Call(e.oid, Serialize)}
  }

  /** A per-entity action touches no object but the entity itself. */
  ghost predicate Aimed(f: Entity -> multiset<Call>) {
    forall e: Entity, c: Call :: c in f(e) ==> c.target == e.oid
  }

  predicate DistinctOids(es: seq<Entity>) {
    forall i, j :: 0 <= i < j < |es| ==> es[i].oid != es[j].oid
  }

  /** The calls made by applying `f` to every entity of `es`. */
  function FanOut(es: seq<Entity>, f: Entity -> multiset<Call>): multiset<Call> {
    if es == [] then multiset{} else f(es[0]) + FanOut(es[1..], f)
  }

  /** An object that is not among `es` receives no call from a fan-out over `es`. */
  lemma {:induction false} FanOutMissesStrangers(es: seq<Entity>, f: Entity -> multiset<Call>, c: Call)
    requires Aimed(f)
    requires forall i :: 0 <= i < |es| ==> es[i].oid != c.target
    ensures FanOut(es, f)[c] == 0
  {
    if es != [] {
      assert es[0].oid != c.target;
      assert c !in f(es[0]);
      FanOutMissesStrangers(es[1..], f, c);
    }
  }

  /**
   * When object identities are distinct, a fan-out makes to each member of `es`
   * exactly the calls `f` makes to it alone.
   */
  lemma {:induction false} FanOutReachesEachOnce(es: seq<Entity>, f: Entity -> multiset<Call>, e: Entity, c: Call)
    requires Aimed(f)
    requires DistinctOids(es)
    requires e in es && c.target == e.oid
    ensures FanOut(es, f)[c] == f(e)[c]
  {
    if es[0] == e {
      FanOutMissesStrangers(es[1..], f, c);
    } else {
      assert e in es[1..];
      assert es[0].oid != e.oid;
      FanOutReachesEachOnce(es[1..], f, e, c);
    }
  }

  lemma TeardownIsAimed()
    ensures Aimed(Teardown)
  {
  }

  lemma ServiceCallsAreAimed()
    ensures Aimed(StartCall) && Aimed(StopCall) && Aimed(SerializeCall)
  {
  }
}

=== FILE: errors.dfy ===
/** The ways an orchestrator operation can reject. */
module Errors {

  datatype Error =
    /** `load` found neither a usable file path nor a load handler. */
    | SourceMissing
    /** Reading or parsing the configuration file failed, or the load handler rejected. */
    | SourceUnreadable
    /** `new (require(packageName)[factoryPath])` threw. */
    | FactoryLoadFailed(packageName: string, factoryPath: string)
    /** No factory is registered for the description's type tag. */
    | FactoryNotFound(typeTag: string)
    /** The registered factory rejected while constructing. */
    | BuildFailed(typeTag: string)
    /** A live object without `dispose` was handed to a factory as if it were a description. */
    | Untyped(id: string)
    /** A serialized emitter state could not be decoded under the chosen format settings. */
    | DecodeFailed
    /** A chronicler was declared by serialized state ("Encryption not supported yet!"). */
    | EncryptionUnsupported
    /** A `dispose` method was called on an entity that has none (a thrown TypeError). */
    | NotDisposable(key: string)
    /** `save` found neither a usable file path nor a save handler. */
    | SinkMissing
}

=== FILE: factories.dfy ===
/**
 * The process-wide factory provider, reduced to what the orchestrator observes:
 * a type tag either has no factory, or has one whose construction rejects or
 * yields an entity with known capabilities.
 */
module Factories {

  import opened Wrappers
  import opened Errors
  import opened Entities
  import opened Config

  /** A factory instance: what constructing through it yields (`None`: it rejects). */
  datatype Factory = Factory(product: Option<Caps>)

  /** Type tag to registered factory. */
  type Catalog = map<string, Factory>

  /** The provider singleton's two catalogs. */
  datatype Provider = Provider(emitters: Catalog, chroniclers: Catalog)

  /** What `new (require(packageName)[factoryPath])` yields; a missing pair throws. */
  type Modules = map<(string, string), Factory>

  /** What a successful construction yields, before it is given an object identity. */
  datatype Blueprint = Blueprint(id: string, caps: Caps)

  function Spawn(b: Blueprint, oid: Oid): Entity {
    Entity(oid, b.id, b.caps)
  }

  /** `buildEmitter` / `buildChronicler`: look the description's type tag up and construct. */
  function Build(cat: Catalog, d: Description): (r: Result<Blueprint, Error>)
    ensures r.Success? <==> d.typeTag in cat && cat[d.typeTag].product.Some?
    ensures r.Success? ==> r.value == Blueprint(d.id, cat[d.typeTag].product.value)
    ensures d.typeTag !in cat ==> r == Failure(FactoryNotFound(d.typeTag))
  {
    if d.typeTag !in cat then Failure(FactoryNotFound(d.typeTag))
    else match cat[d.typeTag].product
      case None => Failure(BuildFailed(d.typeTag))
      case Some(caps) => Success(Blueprint(d.id, caps))
  }

  /** Descriptor `j` is the first whose module cannot be loaded. */
  predicate FirstMissing(ds: seq<FactoryConfig>, modules: Modules, j: nat) {
    && j < |ds| && (ds[j].packageName, ds[j].factoryPath) !in modules
    && forall i :: 0 <= i < j ==> (ds[i].packageName, ds[i].factoryPath) in modules
  }

  /** The outcome of registering a list of factory descriptors. */
  datatype Registration = Registration(catalog: Catalog, failure: Option<Error>)

  /**
   * Register the descriptors in order, each under its type tag; the first
   * descriptor whose module cannot be loaded stops the registration, leaving
   * the earlier registrations in place.
   */
  function RegisterAll(cat: Catalog, ds: seq<FactoryConfig>, modules: Modules): (r: Registration)
    ensures r.failure.None? <==> forall i :: 0 <= i < |ds| ==> (ds[i].packageName, ds[i].factoryPath) in modules
    ensures r.failure.None? ==>
              forall t :: t in r.catalog <==> t in cat || exists i :: 0 <= i < |ds| && ds[i].factoryType == t
    ensures forall t :: t in r.catalog ==> (t in cat && r.catalog[t] == cat[t]) || r.catalog[t] in modules.Values
    ensures forall j: nat :: FirstMissing(ds, modules, j) ==>
              r == Registration(RegisterAll(cat, ds[..j], modules).catalog, Some(FactoryLoadFailed(ds[j].packageName, ds[j].factoryPath)))
    decreases |ds|
  {
    if ds == [] then Registration(cat, None)
    else
      var d := ds[0];
      if (d.packageName, d.factoryPath) !in modules then
        Registration(cat, Some(FactoryLoadFailed(d.packageName, d.factoryPath)))
      else
        var rest := RegisterAll(cat[d.factoryType := modules[(d.packageName, d.factoryPath)]], ds[1..], modules);
        assert forall i :: 1 <= i < |ds| ==> ds[i] == ds[1..][i - 1];
        assert forall j: nat :: 0 < j <= |ds| ==> ds[..j][0] == d && ds[..j][1..] == ds[1..][..j - 1];
        assert forall j: nat :: FirstMissing(ds, modules, j) ==> j > 0 && FirstMissing(ds[1..], modules, j - 1);
        rest
  }

  /** Registering a single descriptor whose module loads installs its factory under its type tag. */
  lemma RegisterOne(cat: Catalog, f: FactoryConfig, modules: Modules)
    requires (f.packageName, f.factoryPath) in modules
    ensures RegisterAll(cat, [f], modules) == Registration(cat[f.factoryType := modules[(f.packageName, f.factoryPath)]], None)
  {
    assert [f][1..] == [];
  }

  /** Descriptor `i` is the last one in `ds` that registers its type tag. */
  predicate LastFor(ds: seq<FactoryConfig>, i: nat) {
    i < |ds| && forall j :: i < j < |ds| ==> ds[j].factoryType != ds[i].factoryType
  }

  /** A registration leaves a type tag that no descriptor names as it was. */
  lemma {:induction false} RegisterAllKeepsOthers(cat: Catalog, ds: seq<FactoryConfig>, modules: Modules, t: string)
    requires forall i :: 0 <= i < |ds| ==> ds[i].factoryType != t
    ensures var r := RegisterAll(cat, ds, modules);
            (t in r.catalog <==> t in cat) && (t in cat ==> r.catalog[t] == cat[t])
    decreases |ds|
  {
    if ds != [] && (ds[0].packageName, ds[0].factoryPath) in modules {
      var d := ds[0];
      RegisterAllKeepsOthers(cat[d.factoryType := modules[(d.packageName, d.factoryPath)]], ds[1..], modules, t);
    }
  }

  /** The last registration of a type tag wins. */
  lemma {:induction false} LastRegistrationWins(cat: Catalog, ds: seq<FactoryConfig>, modules: Modules, i: nat)
    requires LastFor(ds, i)
    requires RegisterAll(cat, ds, modules).failure.None?
    ensures ds[i].factoryType in RegisterAll(cat, ds, modules).catalog
    ensures RegisterAll(cat, ds, modules).catalog[ds[i].factoryType] == modules[(ds[i].packageName, ds[i].factoryPath)]
    decreases |ds|
  {
    var d := ds[0];
    var cat' := cat[d.factoryType := modules[(d.packageName, d.factoryPath)]];
    assert RegisterAll(cat, ds, modules) == RegisterAll(cat', ds[1..], modules);
    if i == 0 {
      RegisterAllKeepsOthers(cat', ds[1..], modules, d.factoryType);
    } else {
      assert LastFor(ds[1..], i - 1);
      LastRegistrationWins(cat', ds[1..], modules, i - 1);
    }
  }

  /** `registerFactories`: emitter descriptors first, then chronicler descriptors. */
  function RegisterFactories(p: Provider, fm: FactoryMap, modules: Modules): (r: (Provider, Option<Error>))
    ensures r.1.None? <==> forall d :: d in fm.emitter + fm.chronicler ==> (d.packageName, d.factoryPath) in modules
    ensures r.0.emitters == RegisterAll(p.emitters, fm.emitter, modules).catalog
    ensures RegisterAll(p.emitters, fm.emitter, modules).failure.Some? ==>
              r.0.chroniclers == p.chroniclers && r.1 == RegisterAll(p.emitters, fm.emitter, modules).failure
    ensures RegisterAll(p.emitters, fm.emitter, modules).failure.None? ==>
              r.0.chroniclers == RegisterAll(p.chroniclers, fm.chronicler, modules).catalog
              && r.1 == RegisterAll(p.chroniclers, fm.chronicler, modules).failure
  {
    var e := RegisterAll(p.emitters, fm.emitter, modules);
    if e.failure.Some? then
      assert exists i :: 0 <= i < |fm.emitter| && (fm.emitter[i].packageName, fm.emitter[i].factoryPath) !in modules;
      (Provider(e.catalog, p.chroniclers), e.failure)
    else
      var c := RegisterAll(p.chroniclers, fm.chronicler, modules);
      assert forall d :: d in fm.emitter + fm.chronicler <==> d in fm.emitter || d in fm.chronicler;
      (Provider(e.catalog, c.catalog), c.failure)
  }

  /** Every factory yields entities that expose a synchronous `dispose`. */
  predicate YieldsDisposable(f: Factory) {
    f.product.Some? ==> f.product.value.dispose
  }

  predicate CatalogDisposable(cat: Catalog) {
    forall t :: t in cat ==> YieldsDisposable(cat[t])
  }

  predicate ModulesDisposable(modules: Modules) {
    forall k :: k in modules ==> YieldsDisposable(modules[k])
  }

  /** Registration only ever installs factories taken from the loaded modules. */
  lemma RegisterKeepsDisposable(p: Provider, fm: FactoryMap, modules: Modules)
    requires CatalogDisposable(p.emitters) && CatalogDisposable(p.chroniclers)
    requires ModulesDisposable(modules)
    ensures CatalogDisposable(RegisterFactories(p, fm, modules).0.emitters)
    ensures CatalogDisposable(RegisterFactories(p, fm, modules).0.chroniclers)
  {
  }
}

=== FILE: loading.dfy ===
/**
 * `load` and its phases (`applyConfiguration`, `createEmitters`,
 * `createChroniclers`, `createConnections`), and `start` / `stop`, which load
 * first when no configuration has been applied yet.
 */
module Loading {

  import opened Wrappers
  import opened Errors
  import opened Casing
  import opened Config
  import opened Entities
  import opened Registry
  import opened Connections
  import opened Factories
  import opened Maestro

  /**
   * What the outside world answers: the parsed configuration file (nothing if
   * reading or parsing fails), the load handler's document (nothing if it
   * rejects), the constructible factory modules, and how serialized emitter
   * state decodes under given format settings.
   */
  datatype World = World(
    fileRead: Option<MaestroConfig>,
    handlerRead: Option<MaestroConfig>,
    modules: Modules,
    decode: map<(string, FormatSettings), Description>)

  /** Where `load` takes its document from: the file path if usable, else the load handler. */
  function Fetch(st: State, w: World): (r: Result<MaestroConfig, Error>)
    ensures r == Failure(SourceMissing) <==> !HasPath(st) && !st.loadHandler
    ensures HasPath(st) ==> (r.Success? <==> w.fileRead.Some?)
    ensures !HasPath(st) && st.loadHandler ==> (r.Success? <==> w.handlerRead.Some?)
    ensures r.Success? ==> r.value == if HasPath(st) then w.fileRead.value else w.handlerRead.value
  {
    if HasPath(st) then
      (match w.fileRead case Some(doc) => Success(doc) case None => Failure(SourceUnreadable))
    else if st.loadHandler then
      (match w.handlerRead case Some(doc) => Success(doc) case None => Failure(SourceUnreadable))
    else Failure(SourceMissing)
  }

  datatype Kind = EmitterKind | ChroniclerKind

  /**
   * The description an entity declaration stands for. Serialized emitter state
   * is decoded under its own format settings, or else under `fallback`;
   * serialized chronicler state is refused.
   */
  function Declared(kind: Kind, cfg: EntityConfig, fallback: FormatSettings,
                    decode: map<(string, FormatSettings), Description>): (r: Result<Description, Error>)
    ensures cfg.config.Inline? ==> r == Success(cfg.config.desc)
    ensures cfg.config.Serialized? && kind.ChroniclerKind? ==> r == Failure(EncryptionUnsupported)
    ensures cfg.config.Serialized? && kind.EmitterKind? ==>
              var key := (cfg.config.text, cfg.formatSettings.GetOr(fallback));
              if key in decode then r == Success(decode[key]) else r == Failure(DecodeFailed)
  {
    match cfg.config
    case Inline(d) => Success(d)
    case Serialized(text) =>
      if kind.ChroniclerKind? then Failure(EncryptionUnsupported)
      else
        var key := (text, cfg.formatSettings.GetOr(fallback));
        if key in decode then Success(decode[key]) else Failure(DecodeFailed)
  }

  /** Construct what a declaration stands for through the catalog. */
  function Resolve(kind: Kind, cat: Catalog, cfg: EntityConfig, fallback: FormatSettings,
                   decode: map<(string, FormatSettings), Description>): Result<Blueprint, Error> {
    match Declared(kind, cfg, fallback, decode)
    case Failure(err) => Failure(err)
    case Success(d) => Build(cat, d)
  }

  /**
   * The `Promise.all` over the declarations: every one constructed, identities
   * `born`, `born + 1`, ..., or the first failure.
   */
  function BuildAll(kind: Kind, cat: Catalog, cfgs: seq<EntityConfig>, fallback: FormatSettings,
                    decode: map<(string, FormatSettings), Description>, born: Oid): (r: Result<seq<Entity>, Error>)
    ensures r.Success? <==> forall i :: 0 <= i < |cfgs| ==> Resolve(kind, cat, cfgs[i], fallback, decode).Success?
    ensures r.Success? ==>
              && |r.value| == |cfgs|
              && forall i :: 0 <= i < |cfgs| ==>
                   r.value[i] == Spawn(Resolve(kind, cat, cfgs[i], fallback, decode).value, born + i)
    ensures |cfgs| > 0 && Resolve(kind, cat, cfgs[0], fallback, decode).Failure? ==>
              r == Failure(Resolve(kind, cat, cfgs[0], fallback, decode).error)
    decreases |cfgs|
  {
    if cfgs == [] then Success([])
    else
      match Resolve(kind, cat, cfgs[0], fallback, decode)
      case Failure(err) => Failure(err)
      case Success(b) =>
        match BuildAll(kind, cat, cfgs[1..], fallback, decode, born + 1)
        case Failure(err) =>
          assert exists i :: 1 <= i < |cfgs| && Resolve(kind, cat, cfgs[i], fallback, decode).Failure? by {
            var j :| 0 <= j < |cfgs[1..]| && Resolve(kind, cat, cfgs[1..][j], fallback, decode).Failure?;
            assert cfgs[1..][j] == cfgs[j + 1];
          }
          Failure(err)
        case Success(rest) =>
          assert forall i :: 1 <= i < |cfgs| ==> cfgs[i] == cfgs[1..][i - 1];
          Success([Spawn(b, born)] + rest)
  }

  /**
   * The un-awaited `addEmitter` calls, one per built emitter, in order. A
   * rejection keeps the state reached; the process-ending unhandled rejection
   * is not modelled.
   */
  function AddAllEmitters(st: State, es: seq<Entity>): (r: State)
    ensures r.chroniclers == st.chroniclers && r.wiring == st.wiring
    ensures r.config == st.config && r.provider == st.provider && r.applied == st.applied
    ensures r.path == st.path && r.loadHandler == st.loadHandler && r.saveHandler == st.saveHandler
    ensures r.disposeOnRemove == st.disposeOnRemove && r.born >= st.born
    ensures OnlyDisposalsAdded(st.calls, r.calls)
    ensures Maestro.Valid(st) ==> Maestro.Valid(r)
    decreases |es|
  {
    if es == [] then st else AddAllEmitters(AddEmitter(st, Live(es[0])).state, es[1..])
  }

  /**
   * The un-awaited `addChronicler` calls, one per built chronicler, in order. A
   * rejection keeps the state reached; the process-ending unhandled rejection
   * is not modelled.
   */
  function AddAllChroniclers(st: State, cs: seq<Entity>): (r: State)
    ensures r.emitters == st.emitters && r.wiring == st.wiring
    ensures r.config == st.config && r.provider == st.provider && r.applied == st.applied
    ensures r.path == st.path && r.loadHandler == st.loadHandler && r.saveHandler == st.saveHandler
    ensures r.disposeOnRemove == st.disposeOnRemove && r.born >= st.born
    ensures OnlyDisposalsAdded(st.calls, r.calls)
    ensures Maestro.Valid(st) ==> Maestro.Valid(r)
    decreases |cs|
  {
    if cs == [] then st else AddAllChroniclers(AddChronicler(st, Live(cs[0])).state, cs[1..])
  }

  /** Each entity under its lower-cased id, in order. */
  function EntriesOf(es: seq<Entity>): (t: Table)
    ensures |t| == |es|
    ensures forall i :: 0 <= i < |es| ==> t[i] == Entry(Lower(es[i].id), es[i])
  {
    seq(|es|, i requires 0 <= i < |es| => Entry(Lower(es[i].id), es[i]))
  }

  lemma EntriesOfCons(t: Table, es: seq<Entity>)
    requires es != []
    ensures t + EntriesOf(es) == (t + [Entry(Lower(es[0].id), es[0])]) + EntriesOf(es[1..])
  {
  }

  /** No two entities share a lower-cased id. */
  predicate DistinctKeys(es: seq<Entity>) {
    forall i, j :: 0 <= i < j < |es| ==> Lower(es[i].id) != Lower(es[j].id)
  }

  /** A key absent from a table stays absent once an entry under another key is appended. */
  lemma StaysAbsent(t: Table, e: Entry, k: string)
    requires !Has(t, k) && e.key != k
    ensures !Has(t + [e], k)
  {
  }

  lemma AddEmitterAppendsFresh(st: State, e: Entity)
    requires e.caps.dispose && !Has(st.emitters, Lower(e.id))
    ensures AddEmitter(st, Live(e)).state.emitters == st.emitters + [Entry(Lower(e.id), e)]
    ensures AddEmitter(st, Live(e)).state.calls == st.calls
  {
  }

  lemma AddChroniclerAppendsFresh(st: State, c: Entity)
    requires c.caps.dispose && !Has(st.chroniclers, Lower(c.id))
    ensures AddChronicler(st, Live(c)).state.chroniclers == st.chroniclers + [Entry(Lower(c.id), c)]
    ensures AddChronicler(st, Live(c)).state.calls == st.calls
  {
  }

  /**
   * Built emitters that expose `dispose`, with distinct lower-cased ids none of
   * which is registered yet, are appended in order, one entry each.
   */
  lemma {:induction false} AddAllEmittersAppends(st: State, es: seq<Entity>)
    requires forall i :: 0 <= i < |es| ==> es[i].caps.dispose
    requires DistinctKeys(es)
    requires forall i :: 0 <= i < |es| ==> !Has(st.emitters, Lower(es[i].id))
    ensures AddAllEmitters(st, es).emitters == st.emitters + EntriesOf(es)
    ensures AddAllEmitters(st, es).calls == st.calls
    decreases |es|
  {
    if es != [] {
      var s1 := AddEmitter(st, Live(es[0])).state;
      var k := Lower(es[0].id);
      AddEmitterAppendsFresh(st, es[0]);
      forall i | 0 <= i < |es[1..]| ensures !Has(s1.emitters, Lower(es[1..][i].id)) {
        assert es[1..][i] == es[i + 1];
        StaysAbsent(st.emitters, Entry(k, es[0]), Lower(es[i + 1].id));
      }
      AddAllEmittersAppends(s1, es[1..]);
      EntriesOfCons(st.emitters, es);
    }
  }

  /** The chronicler counterpart of `AddAllEmittersAppends`. */
  lemma {:induction false} AddAllChroniclersAppends(st: State, cs: seq<Entity>)
    requires forall i :: 0 <= i < |cs| ==> cs[i].caps.dispose
    requires DistinctKeys(cs)
    requires forall i :: 0 <= i < |cs| ==> !Has(st.chroniclers, Lower(cs[i].id))
    ensures AddAllChroniclers(st, cs).chroniclers == st.chroniclers + EntriesOf(cs)
    ensures AddAllChroniclers(st, cs).calls == st.calls
    decreases |cs|
  {
    if cs != [] {
      var s1 := AddChronicler(st, Live(cs[0])).state;
      var k := Lower(cs[0].id);
      AddChroniclerAppendsFresh(st, cs[0]);
      forall i | 0 <= i < |cs[1..]| ensures !Has(s1.chroniclers, Lower(cs[1..][i].id)) {
        assert cs[1..][i] == cs[i + 1];
        StaysAbsent(st.chroniclers, Entry(k, cs[0]), Lower(cs[i + 1].id));
      }
      AddAllChroniclersAppends(s1, cs[1..]);
      EntriesOfCons(st.chroniclers, cs);
    }
  }

  /** `createEmitters`: construct all declarations (string payloads recreated), then add each. */
  function CreateEmitters(st: State, cfgs: seq<EntityConfig>,
                          decode: map<(string, FormatSettings), Description>): (r: Run<()>)
    ensures r.out.Failure? ==> r.state == st
    ensures r.out.Success? <==>
              forall i :: 0 <= i < |cfgs| ==>
                Resolve(EmitterKind, st.provider.emitters, cfgs[i], st.config.formatSettings, decode).Success?
    ensures r.state.chroniclers == st.chroniclers && r.state.wiring == st.wiring
    ensures r.state.config == st.config && r.state.provider == st.provider && r.state.applied == st.applied
    ensures r.state.path == st.path && r.state.loadHandler == st.loadHandler && r.state.saveHandler == st.saveHandler
    ensures r.state.disposeOnRemove == st.disposeOnRemove && OnlyDisposalsAdded(st.calls, r.state.calls)
    ensures Maestro.Valid(st) ==> Maestro.Valid(r.state)
  {
    match BuildAll(EmitterKind, st.provider.emitters, cfgs, st.config.formatSettings, decode, st.born)
    case Failure(err) => Run(st, Failure(err))
    case Success(es) => Run(AddAllEmitters(st.(born := st.born + |cfgs|), es), Success(()))
  }

  /** `createChroniclers`: construct all declarations (a string payload rejects), then add each. */
  function CreateChroniclers(st: State, cfgs: seq<EntityConfig>): (r: Run<()>)
    ensures r.out.Failure? ==> r.state == st
    ensures r.out.Success? <==>
              forall i :: 0 <= i < |cfgs| ==>
                cfgs[i].config.Inline? && Build(st.provider.chroniclers, cfgs[i].config.desc).Success?
    ensures (exists i :: 0 <= i < |cfgs| && cfgs[i].config.Serialized?) ==> r.out.Failure?
    ensures r.state.emitters == st.emitters && r.state.wiring == st.wiring
    ensures r.state.config == st.config && r.state.provider == st.provider && r.state.applied == st.applied
    ensures r.state.path == st.path && r.state.loadHandler == st.loadHandler && r.state.saveHandler == st.saveHandler
    ensures r.state.disposeOnRemove == st.disposeOnRemove && OnlyDisposalsAdded(st.calls, r.state.calls)
    ensures Maestro.Valid(st) ==> Maestro.Valid(r.state)
  {
    match BuildAll(ChroniclerKind, st.provider.chroniclers, cfgs, st.config.formatSettings, map[], st.born)
    case Failure(err) => Run(st, Failure(err))
    case Success(cs) => Run(AddAllChroniclers(st.(born := st.born + |cfgs|), cs), Success(()))
  }

  /** A successful `createEmitters` is the `Promise.all` build followed by the adds. */
  lemma CreateEmittersAdds(st: State, cfgs: seq<EntityConfig>, decode: map<(string, FormatSettings), Description>)
    requires CreateEmitters(st, cfgs, decode).out.Success?
    ensures var b := BuildAll(EmitterKind, st.provider.emitters, cfgs, st.config.formatSettings, decode, st.born);
            b.Success? && CreateEmitters(st, cfgs, decode).state == AddAllEmitters(st.(born := st.born + |cfgs|), b.value)
  {
  }

  /** A successful `createChroniclers` is the `Promise.all` build followed by the adds. */
  lemma CreateChroniclersAdds(st: State, cfgs: seq<EntityConfig>)
    requires CreateChroniclers(st, cfgs).out.Success?
    ensures var b := BuildAll(ChroniclerKind, st.provider.chroniclers, cfgs, st.config.formatSettings, map[], st.born);
            b.Success? && CreateChroniclers(st, cfgs).state == AddAllChroniclers(st.(born := st.born + |cfgs|), b.value)
  {
  }

  /** The declarations' ids, lower-cased, are pairwise distinct among those that declare a description. */
  predicate DistinctDeclared(kind: Kind, cfgs: seq<EntityConfig>, fallback: FormatSettings,
                             decode: map<(string, FormatSettings), Description>) {
    forall i, j :: 0 <= i < j < |cfgs|
      && Declared(kind, cfgs[i], fallback, decode).Success? && Declared(kind, cfgs[j], fallback, decode).Success?
      ==> Lower(Declared(kind, cfgs[i], fallback, decode).value.id) != Lower(Declared(kind, cfgs[j], fallback, decode).value.id)
  }

  /** The entities a successful build yields carry their declared ids and expose `dispose`. */
  lemma BuiltAreDeclared(kind: Kind, cat: Catalog, cfgs: seq<EntityConfig>, fallback: FormatSettings,
                         decode: map<(string, FormatSettings), Description>, born: Oid)
    requires CatalogDisposable(cat)
    requires DistinctDeclared(kind, cfgs, fallback, decode)
    requires BuildAll(kind, cat, cfgs, fallback, decode, born).Success?
    ensures var es := BuildAll(kind, cat, cfgs, fallback, decode, born).value;
            && DistinctKeys(es)
            && (forall i :: 0 <= i < |es| ==> es[i].caps.dispose)
            && (forall i :: 0 <= i < |es| ==> es[i].id == Declared(kind, cfgs[i], fallback, decode).value.id)
  {
  }

  /**
   * Into an empty emitter registry, a successful `createEmitters` over
   * declarations with distinct ids, through factories whose products expose
   * `dispose`, registers exactly one emitter per declaration, in order.
   */
  lemma CreateEmittersRegistersEach(st: State, cfgs: seq<EntityConfig>, decode: map<(string, FormatSettings), Description>)
    requires st.emitters == []
    requires CatalogDisposable(st.provider.emitters)
    requires DistinctDeclared(EmitterKind, cfgs, st.config.formatSettings, decode)
    requires CreateEmitters(st, cfgs, decode).out.Success?
    ensures var t := CreateEmitters(st, cfgs, decode).state.emitters;
            && |t| == |cfgs|
            && forall i :: 0 <= i < |cfgs| ==>
                 t[i].key == Lower(Declared(EmitterKind, cfgs[i], st.config.formatSettings, decode).value.id)
  {
    var fs := st.config.formatSettings;
    var s0 := st.(born := st.born + |cfgs|);
    var es := BuildAll(EmitterKind, st.provider.emitters, cfgs, fs, decode, st.born).value;
    CreateEmittersAdds(st, cfgs, decode);
    BuiltAreDeclared(EmitterKind, st.provider.emitters, cfgs, fs, decode, st.born);
    AddAllEmittersAppends(s0, es);
    var t := CreateEmitters(st, cfgs, decode).state.emitters;
    assert t == EntriesOf(es);
    forall i | 0 <= i < |cfgs| ensures t[i].key == Lower(Declared(EmitterKind, cfgs[i], fs, decode).value.id) {
      assert t[i] == Entry(Lower(es[i].id), es[i]);
    }
  }

  /** The chronicler counterpart of `CreateEmittersRegistersEach`. */
  lemma CreateChroniclersRegistersEach(st: State, cfgs: seq<EntityConfig>)
    requires st.chroniclers == []
    requires CatalogDisposable(st.provider.chroniclers)
    requires DistinctDeclared(ChroniclerKind, cfgs, st.config.formatSettings, map[])
    requires CreateChroniclers(st, cfgs).out.Success?
    ensures var t := CreateChroniclers(st, cfgs).state.chroniclers;
            && |t| == |cfgs|
            && forall i :: 0 <= i < |cfgs| ==>
                 t[i].key == Lower(Declared(ChroniclerKind, cfgs[i], st.config.formatSettings, map[]).value.id)
  {
    var fs := st.config.formatSettings;
    var s0 := st.(born := st.born + |cfgs|);
    var cs := BuildAll(ChroniclerKind, st.provider.chroniclers, cfgs, fs, map[], st.born).value;
    CreateChroniclersAdds(st, cfgs);
    BuiltAreDeclared(ChroniclerKind, st.provider.chroniclers, cfgs, fs, map[], st.born);
    AddAllChroniclersAppends(s0, cs);
    var t := CreateChroniclers(st, cfgs).state.chroniclers;
    assert t == EntriesOf(cs);
    forall i | 0 <= i < |cfgs| ensures t[i].key == Lower(Declared(ChroniclerKind, cfgs[i], fs, map[]).value.id) {
      assert t[i] == Entry(Lower(cs[i].id), cs[i]);
    }
  }

  /**
   * Under the hypotheses of `CreateEmittersRegistersEach`, no emitter is
   * replaced, so `createEmitters` disposes nothing.
   */
  lemma CreateEmittersCallsNothing(st: State, cfgs: seq<EntityConfig>, decode: map<(string, FormatSettings), Description>)
    requires st.emitters == []
    requires CatalogDisposable(st.provider.emitters)
    requires DistinctDeclared(EmitterKind, cfgs, st.config.formatSettings, decode)
    requires CreateEmitters(st, cfgs, decode).out.Success?
    ensures CreateEmitters(st, cfgs, decode).state.calls == st.calls
  {
    var es := BuildAll(EmitterKind, st.provider.emitters, cfgs, st.config.formatSettings, decode, st.born).value;
    CreateEmittersAdds(st, cfgs, decode);
    BuiltAreDeclared(EmitterKind, st.provider.emitters, cfgs, st.config.formatSettings, decode, st.born);
    AddAllEmittersAppends(st.(born := st.born + |cfgs|), es);
  }

  /** The chronicler counterpart of `CreateEmittersCallsNothing`. */
  lemma CreateChroniclersCallsNothing(st: State, cfgs: seq<EntityConfig>)
    requires st.chroniclers == []
    requires CatalogDisposable(st.provider.chroniclers)
    requires DistinctDeclared(ChroniclerKind, cfgs, st.config.formatSettings, map[])
    requires CreateChroniclers(st, cfgs).out.Success?
    ensures CreateChroniclers(st, cfgs).state.calls == st.calls
  {
    var cs := BuildAll(ChroniclerKind, st.provider.chroniclers, cfgs, st.config.formatSettings, map[], st.born).value;
    CreateChroniclersAdds(st, cfgs);
    BuiltAreDeclared(ChroniclerKind, st.provider.chroniclers, cfgs, st.config.formatSettings, map[], st.born);
    AddAllChroniclersAppends(st.(born := st.born + |cfgs|), cs);
  }

  /**
   * The registered entities a connection declaration names, looked up by
   * lower-cased id; ids that resolve to nothing are dropped.
   */
  function ResolveIds(t: Table, ids: seq<string>): (r: seq<Entity>)
    ensures |r| <= |ids|
    ensures |r| == |ids| <==> forall i :: 0 <= i < |ids| ==> Has(t, Lower(ids[i]))
    ensures |r| == |ids| ==> forall i :: 0 <= i < |ids| ==> Some(r[i]) == Get(t, Lower(ids[i]))
    ensures r == [] <==> forall i :: 0 <= i < |ids| ==> !Has(t, Lower(ids[i]))
    decreases |ids|
  {
    if ids == [] then []
    else
      var rest := ResolveIds(t, ids[1..]);
      ShiftIds(t, ids);
      var head := match Get(t, Lower(ids[0])) case Some(e) => [e] case None => [];
      ResolveOrderStep(t, ids, head, rest);
      head + rest
  }

  /** One step of `ResolveIds`: with every id present, the head's lookup in front of the resolved tail. */
  lemma ResolveOrderStep(t: Table, ids: seq<string>, head: seq<Entity>, rest: seq<Entity>)
    requires ids != []
    requires head == match Get(t, Lower(ids[0])) case Some(e) => [e] case None => []
    requires |rest| == |ids[1..]| ==> forall i :: 0 <= i < |ids[1..]| ==> Some(rest[i]) == Get(t, Lower(ids[1..][i]))
    requires |rest| <= |ids[1..]|
    ensures |head + rest| == |ids| ==> forall i :: 0 <= i < |ids| ==> Some((head + rest)[i]) == Get(t, Lower(ids[i]))
  {
    if |head + rest| == |ids| {
      assert |head| == 1 && |rest| == |ids[1..]|;
      forall i | 0 <= i < |ids| ensures Some((head + rest)[i]) == Get(t, Lower(ids[i])) {
        if i > 0 {
          assert (head + rest)[i] == rest[i - 1];
          assert ids[1..][i - 1] == ids[i];
        }
      }
    }
  }

  /** The resolved entities are exactly those some id of the declaration looks up. */
  lemma {:induction false} ResolveIdsMembers(t: Table, ids: seq<string>)
    ensures forall e :: e in ResolveIds(t, ids) <==> exists i :: 0 <= i < |ids| && Get(t, Lower(ids[i])) == Some(e)
    decreases |ids|
  {
    if ids != [] {
      var head := match Get(t, Lower(ids[0])) case Some(e) => [e] case None => [];
      var rest := ResolveIds(t, ids[1..]);
      ResolveIdsMembers(t, ids[1..]);
      assert ResolveIds(t, ids) == head + rest;
      ResolveMembersStep(t, ids, head, rest);
    }
  }

  lemma ResolveMembersStep(t: Table, ids: seq<string>, head: seq<Entity>, rest: seq<Entity>)
    requires ids != []
    requires head == match Get(t, Lower(ids[0])) case Some(e) => [e] case None => []
    requires forall e :: e in rest <==> exists i :: 0 <= i < |ids[1..]| && Get(t, Lower(ids[1..][i])) == Some(e)
    ensures forall e :: e in head + rest <==> exists i :: 0 <= i < |ids| && Get(t, Lower(ids[i])) == Some(e)
  {
    forall e | e in head + rest ensures exists i :: 0 <= i < |ids| && Get(t, Lower(ids[i])) == Some(e) {
      if e !in head {
        var i :| 0 <= i < |ids[1..]| && Get(t, Lower(ids[1..][i])) == Some(e);
        assert ids[1..][i] == ids[i + 1];
      }
    }
    forall e | exists i :: 0 <= i < |ids| && Get(t, Lower(ids[i])) == Some(e) ensures e in head + rest {
      var i :| 0 <= i < |ids| && Get(t, Lower(ids[i])) == Some(e);
      if i > 0 {
        assert ids[1..][i - 1] == ids[i];
      }
    }
  }

  /** Resolving a concatenation of id lists concatenates the results: order follows the ids. */
  lemma {:induction false} ResolveIdsAppend(t: Table, a: seq<string>, b: seq<string>)
    ensures ResolveIds(t, a + b) == ResolveIds(t, a) + ResolveIds(t, b)
    decreases |a|
  {
    if a != [] {
      var head := match Get(t, Lower(a[0])) case Some(e) => [e] case None => [];
      assert (a + b)[0] == a[0];
      assert (a + b)[1..] == a[1..] + b;
      ResolveIdsUnfold(t, a + b);
      ResolveIdsUnfold(t, a);
      ResolveIdsAppend(t, a[1..], b);
      Regroup(head, ResolveIds(t, a[1..]), ResolveIds(t, b), ResolveIds(t, a[1..] + b));
    } else {
      assert a + b == b;
    }
  }

  lemma ResolveIdsUnfold(t: Table, ids: seq<string>)
    requires ids != []
    ensures ResolveIds(t, ids) == (match Get(t, Lower(ids[0])) case Some(e) => [e] case None => []) + ResolveIds(t, ids[1..])
  {
  }

  lemma Regroup(head: seq<Entity>, x: seq<Entity>, y: seq<Entity>, z: seq<Entity>)
    requires z == x + y
    ensures head + z == (head + x) + y
  {
  }

  /** Resolving one id yields its registered entity, or nothing. */
  lemma ResolveOne(t: Table, id: string)
    ensures ResolveIds(t, [id]) == match Get(t, Lower(id)) case Some(e) => [e] case None => []
  {
    assert [id][1..] == [];
  }

  /** Ids that differ only in case, position by position, resolve to the same entities. */
  lemma {:induction false} ResolveIgnoresCase(t: Table, a: seq<string>, b: seq<string>)
    requires |a| == |b| && forall i :: 0 <= i < |a| ==> SameIgnoringCase(a[i], b[i])
    ensures ResolveIds(t, a) == ResolveIds(t, b)
    decreases |a|
  {
    if a != [] {
      CaseInsensitiveLookup(t, a[0], b[0]);
      assert forall i :: 0 <= i < |a[1..]| ==> a[1..][i] == a[i + 1] && b[1..][i] == b[i + 1];
      ResolveIgnoresCase(t, a[1..], b[1..]);
    }
  }

  lemma ShiftIds(t: Table, ids: seq<string>)
    requires ids != []
    ensures (forall i :: 0 <= i < |ids| ==> Has(t, Lower(ids[i])))
              <==> Has(t, Lower(ids[0])) && forall i :: 0 <= i < |ids[1..]| ==> Has(t, Lower(ids[1..][i]))
    ensures (forall i :: 0 <= i < |ids| ==> !Has(t, Lower(ids[i])))
              <==> !Has(t, Lower(ids[0])) && forall i :: 0 <= i < |ids[1..]| ==> !Has(t, Lower(ids[1..][i]))
  {
    assert forall i :: 1 <= i < |ids| ==> ids[i] == ids[1..][i - 1];
  }

  /** The number of emitter/chronicler pairs the declarations attach, in total. */
  function Fanned(emitters: Table, chroniclers: Table, conns: seq<Connection>): nat
    decreases |conns|
  {
    if conns == [] then 0
    else
      |Product(ResolveIds(emitters, conns[0].emitters), ResolveIds(chroniclers, conns[0].chroniclers))|
      + Fanned(emitters, chroniclers, conns[1..])
  }

  /** One `connect(emitters, chroniclers)` per declaration, both sides passed as arrays. */
  function ConnectAll(st: State, conns: seq<Connection>): (r: State)
    ensures r == st.(wiring := r.wiring)
    ensures st.wiring.subs <= r.wiring.subs && st.wiring.tracked <= r.wiring.tracked
    ensures r.wiring.next >= st.wiring.next
    decreases |conns|
  {
    if conns == [] then st
    else
      var es := ResolveIds(st.emitters, conns[0].emitters);
      var cs := ResolveIds(st.chroniclers, conns[0].chroniclers);
      ConnectAll(st.(wiring := Connect(st.wiring, Many(es), Many(cs)).wiring), conns[1..])
  }

  /**
   * Each declaration adds one tracked handle and two subscriptions per
   * emitter/chronicler pair that resolves, and keeps the wiring consistent.
   */
  lemma {:induction false} ConnectAllCounts(st: State, conns: seq<Connection>)
    requires Connections.Valid(st.wiring)
    ensures var r := ConnectAll(st, conns);
            && Connections.Valid(r.wiring)
            && |r.wiring.tracked| == |st.wiring.tracked| + |conns|
            && |r.wiring.subs| == |st.wiring.subs| + 2 * Fanned(st.emitters, st.chroniclers, conns)
    decreases |conns|
  {
    if conns != [] {
      var es := ResolveIds(st.emitters, conns[0].emitters);
      var cs := ResolveIds(st.chroniclers, conns[0].chroniclers);
      ConnectFanOut(st.wiring, Many(es), Many(cs));
      var s1 := st.(wiring := Connect(st.wiring, Many(es), Many(cs)).wiring);
      ConnectAllCounts(s1, conns[1..]);
    }
  }

  /** Each declaration links every emitter it resolves to every chronicler it resolves. */
  ghost predicate WiresDeclared(st: State, conns: seq<Connection>, w: Wiring) {
    forall n, e, c ::
      (0 <= n < |conns| && e in ResolveIds(st.emitters, conns[n].emitters)
       && c in ResolveIds(st.chroniclers, conns[n].chroniclers)) ==> Linked(w, e.oid, c.oid)
  }

  /** Every subscription `w` has beyond `st`'s joins an emitter and a chronicler of one declaration. */
  ghost predicate OnlyDeclared(st: State, conns: seq<Connection>, w: Wiring) {
    forall s :: s in w.subs && s !in st.wiring.subs ==>
      exists n :: 0 <= n < |conns| && s.emitter in Oids(ResolveIds(st.emitters, conns[n].emitters))
                  && s.chronicler in Oids(ResolveIds(st.chroniclers, conns[n].chroniclers))
  }

  lemma {:induction false} ConnectAllLinksDeclared(st: State, conns: seq<Connection>)
    ensures WiresDeclared(st, conns, ConnectAll(st, conns).wiring)
    decreases |conns|
  {
    if conns != [] {
      var es := ResolveIds(st.emitters, conns[0].emitters);
      var cs := ResolveIds(st.chroniclers, conns[0].chroniclers);
      var s1 := st.(wiring := Connect(st.wiring, Many(es), Many(cs)).wiring);
      var r := ConnectAll(st, conns);
      assert r == ConnectAll(s1, conns[1..]);
      ConnectLinksEveryPair(st.wiring, Many(es), Many(cs));
      ConnectAllLinksDeclared(s1, conns[1..]);
      forall n, e, c | 0 <= n < |conns| && e in ResolveIds(st.emitters, conns[n].emitters)
                       && c in ResolveIds(st.chroniclers, conns[n].chroniclers)
        ensures Linked(r.wiring, e.oid, c.oid)
      {
        if n == 0 {
          var l :| Sub(l, e.oid, c.oid, Data) in s1.wiring.subs && Sub(l, e.oid, c.oid, Status) in s1.wiring.subs;
          assert Sub(l, e.oid, c.oid, Data) in r.wiring.subs;
        } else {
          assert conns[1..][n - 1] == conns[n];
        }
      }
    }
  }

  lemma {:induction false} ConnectAllOnlyDeclared(st: State, conns: seq<Connection>)
    ensures OnlyDeclared(st, conns, ConnectAll(st, conns).wiring)
    decreases |conns|
  {
    if conns != [] {
      var es := ResolveIds(st.emitters, conns[0].emitters);
      var cs := ResolveIds(st.chroniclers, conns[0].chroniclers);
      var s1 := st.(wiring := Connect(st.wiring, Many(es), Many(cs)).wiring);
      var r := ConnectAll(st, conns);
      assert r == ConnectAll(s1, conns[1..]);
      ConnectLinksEveryPair(st.wiring, Many(es), Many(cs));
      ConnectAllOnlyDeclared(s1, conns[1..]);
      OnlyDeclaredStep(st, conns, s1.wiring, r.wiring);
    }
  }

  /** The first declaration's subscriptions, then the rest's, are all declared ones. */
  lemma OnlyDeclaredStep(st: State, conns: seq<Connection>, w1: Wiring, w2: Wiring)
    requires conns != []
    requires forall s :: s in w1.subs && s !in st.wiring.subs ==>
               s.emitter in Oids(ResolveIds(st.emitters, conns[0].emitters))
               && s.chronicler in Oids(ResolveIds(st.chroniclers, conns[0].chroniclers))
    requires st.wiring.subs <= w1.subs
    requires OnlyDeclared(st.(wiring := w1), conns[1..], w2)
    ensures OnlyDeclared(st, conns, w2)
  {
    forall s | s in w2.subs && s !in st.wiring.subs
      ensures exists n :: 0 <= n < |conns| && s.emitter in Oids(ResolveIds(st.emitters, conns[n].emitters))
                          && s.chronicler in Oids(ResolveIds(st.chroniclers, conns[n].chroniclers))
    {
      if s in w1.subs {
        assert s.emitter in Oids(ResolveIds(st.emitters, conns[0].emitters));
      } else {
        var m :| 0 <= m < |conns[1..]| && s.emitter in Oids(ResolveIds(st.emitters, conns[1..][m].emitters))
                 && s.chronicler in Oids(ResolveIds(st.chroniclers, conns[1..][m].chroniclers));
        assert conns[1..][m] == conns[m + 1];
      }
    }
  }

  /**
   * `createConnections`: nothing for an empty list; otherwise one new handle
   * per declaration, which links exactly the emitters it resolves to the
   * chroniclers it resolves.
   */
  function CreateConnections(st: State, conns: seq<Connection>): (r: State)
    ensures conns == [] ==> r == st
    ensures r == st.(wiring := r.wiring)
    ensures st.wiring.subs <= r.wiring.subs && st.wiring.tracked <= r.wiring.tracked
    ensures WiresDeclared(st, conns, r.wiring) && OnlyDeclared(st, conns, r.wiring)
    ensures Connections.Valid(st.wiring) ==> |r.wiring.tracked| == |st.wiring.tracked| + |conns|
    ensures Maestro.Valid(st) ==> Maestro.Valid(r)
  {
    if |conns| == 0 then st
    else
      ConnectAllValid(st, conns);
      ConnectAllLinksDeclared(st, conns);
      ConnectAllOnlyDeclared(st, conns);
      ConnectAll(st, conns)
  }

  lemma ConnectAllValid(st: State, conns: seq<Connection>)
    ensures Maestro.Valid(st) ==> Maestro.Valid(ConnectAll(st, conns))
    ensures Connections.Valid(st.wiring) ==> |ConnectAll(st, conns).wiring.tracked| == |st.wiring.tracked| + |conns|
  {
    if Connections.Valid(st.wiring) {
      ConnectAllCounts(st, conns);
    }
  }

  /**
   * A declaration naming one registered emitter and one registered chronicler
   * (ids in any case) yields one tracked handle and two subscriptions.
   */
  lemma ConnectOneToOne(st: State, e: string, c: string)
    requires Maestro.Valid(st)
    requires Has(st.emitters, Lower(e)) && Has(st.chroniclers, Lower(c))
    ensures var r := CreateConnections(st, [Connection([e], [c])]);
            && |r.wiring.tracked| == |st.wiring.tracked| + 1
            && |r.wiring.subs| == |st.wiring.subs| + 2
  {
    var conns := [Connection([e], [c])];
    ConnectAllCounts(st, conns);
    assert |ResolveIds(st.emitters, [e])| == 1;
    assert |ResolveIds(st.chroniclers, [c])| == 1;
    assert Fanned(st.emitters, st.chroniclers, conns[1..]) == 0;
  }

  /**
   * A declaration none of whose chroniclers is registered attaches nothing,
   * yet still tracks one (empty) handle.
   */
  lemma ConnectUnknownChroniclers(st: State, conn: Connection)
    requires Maestro.Valid(st)
    requires forall i :: 0 <= i < |conn.chroniclers| ==> !Has(st.chroniclers, Lower(conn.chroniclers[i]))
    ensures var r := CreateConnections(st, [conn]);
            && r.wiring.subs == st.wiring.subs
            && |r.wiring.tracked| == |st.wiring.tracked| + 1
  {
    var conns := [conn];
    ConnectAllCounts(st, conns);
    assert ResolveIds(st.chroniclers, conn.chroniclers) == [];
    assert Fanned(st.emitters, st.chroniclers, conns[1..]) == 0;
    var r := CreateConnections(st, conns);
    assert |r.wiring.subs - st.wiring.subs| == 0;
  }

  /**
   * A document applies on top of provider `p`: every factory module loads, and
   * then, through the catalogs so extended, every emitter declaration (decoded
   * under `fallback` where it has no settings of its own) and every chronicler
   * declaration constructs.
   */
  predicate Applicable(p: Provider, fallback: FormatSettings, doc: MaestroConfig, w: World) {
    var reg := RegisterFactories(p, doc.factories, w.modules);
    && reg.1.None?
    && (forall i :: 0 <= i < |doc.emitters| ==>
          Resolve(EmitterKind, reg.0.emitters, doc.emitters[i], fallback, w.decode).Success?)
    && (forall i :: 0 <= i < |doc.chroniclers| ==>
          doc.chroniclers[i].config.Inline? && Build(reg.0.chroniclers, doc.chroniclers[i].config.desc).Success?)
  }

  /**
   * The phases of `applyConfiguration` after factory registration: build and
   * add the emitters, then the chroniclers, wire the connections, and adopt
   * the document. A failing phase rejects, keeping what earlier phases did.
   */
  function BuildAndWire(s1: State, doc: MaestroConfig, w: World): (r: Run<()>)
    ensures r.out.Success? <==>
              && (forall i :: 0 <= i < |doc.emitters| ==>
                    Resolve(EmitterKind, s1.provider.emitters, doc.emitters[i], s1.config.formatSettings, w.decode).Success?)
              && (forall i :: 0 <= i < |doc.chroniclers| ==>
                    doc.chroniclers[i].config.Inline? && Build(s1.provider.chroniclers, doc.chroniclers[i].config.desc).Success?)
    ensures r.out.Success? ==> r.state.config == doc
    ensures r.out.Failure? ==> r.state.config == s1.config && r.state.wiring == s1.wiring && r.state.chroniclers == s1.chroniclers
    ensures r.out.Success? ==> WiredAsDeclared(r.state, s1.wiring, doc.connections)
    ensures r.state.provider == s1.provider
    ensures r.state.path == s1.path && r.state.loadHandler == s1.loadHandler && r.state.saveHandler == s1.saveHandler
    ensures r.state.applied == s1.applied && r.state.disposeOnRemove == s1.disposeOnRemove
    ensures OnlyDisposalsAdded(s1.calls, r.state.calls)
    ensures Maestro.Valid(s1) ==> Maestro.Valid(r.state)
  {
    var e := CreateEmitters(s1, doc.emitters, w.decode);
    if e.out.Failure? then e
    else
      var c := CreateChroniclers(e.state, doc.chroniclers);
      assert e.state.provider == s1.provider && e.state.config == s1.config;
      if c.out.Failure? then c
      else
        assert c.state.wiring == s1.wiring;
        OnlyDisposalsChain(s1.calls, e.state.calls, c.state.calls);
        Run(Wire(c.state, doc), Success(()))
  }

  /**
   * `t`'s wiring realises `conns` on top of `before`: each declaration links
   * every emitter it resolves in `t` to every chronicler it resolves, nothing
   * else is linked, and one handle per declaration is tracked.
   */
  ghost predicate WiredAsDeclared(t: State, before: Wiring, conns: seq<Connection>) {
    && WiresDeclared(t, conns, t.wiring)
    && OnlyDeclared(t.(wiring := before), conns, t.wiring)
    && (Connections.Valid(before) ==> |t.wiring.tracked| == |before.tracked| + |conns|)
  }

  /** The wiring predicates look only at the registries and the prior subscriptions. */
  lemma DeclaredSeesRegistries(a: State, b: State, conns: seq<Connection>, w: Wiring)
    requires a.emitters == b.emitters && a.chroniclers == b.chroniclers
    ensures WiresDeclared(a, conns, w) <==> WiresDeclared(b, conns, w)
    ensures a.wiring.subs == b.wiring.subs ==> (OnlyDeclared(a, conns, w) <==> OnlyDeclared(b, conns, w))
  {
  }

  /** Marking the configuration applied leaves the wiring as declared. */
  lemma AppliedKeepsWiring(a: State, before: Wiring, conns: seq<Connection>)
    requires WiredAsDeclared(a, before, conns)
    ensures WiredAsDeclared(a.(applied := true), before, conns)
  {
    DeclaredSeesRegistries(a, a.(applied := true), conns, a.wiring);
    DeclaredSeesRegistries(a.(wiring := before), a.(applied := true, wiring := before), conns, a.wiring);
  }

  /** The last two steps of `applyConfiguration`: wire the connections, then adopt the document. */
  function Wire(c: State, doc: MaestroConfig): (r: State)
    ensures r == c.(wiring := r.wiring, config := doc)
    ensures c.wiring.subs <= r.wiring.subs && c.wiring.tracked <= r.wiring.tracked
    ensures WiredAsDeclared(r, c.wiring, doc.connections)
    ensures Maestro.Valid(c) ==> Maestro.Valid(r)
  {
    var connected := CreateConnections(c, doc.connections);
    AdoptKeepsWiring(c, connected, doc);
    connected.(config := doc)
  }

  lemma AdoptKeepsWiring(c: State, connected: State, doc: MaestroConfig)
    requires connected == c.(wiring := connected.wiring)
    requires WiresDeclared(c, doc.connections, connected.wiring) && OnlyDeclared(c, doc.connections, connected.wiring)
    requires Connections.Valid(c.wiring) ==> |connected.wiring.tracked| == |c.wiring.tracked| + |doc.connections|
    ensures WiredAsDeclared(connected.(config := doc), c.wiring, doc.connections)
  {
    DeclaredSeesRegistries(c, connected.(config := doc), doc.connections, connected.wiring);
    DeclaredSeesRegistries(c, connected.(config := doc, wiring := c.wiring), doc.connections, connected.wiring);
  }

  /**
   * `applyConfiguration`: register the factories, then build, add and wire
   * what the document declares, and only then adopt it.
   */
  function ApplyConfiguration(st: State, doc: MaestroConfig, w: World): (r: Run<()>)
    ensures r.out.Success? <==> Applicable(st.provider, st.config.formatSettings, doc, w)
    ensures r.out.Success? ==> r.state.config == doc
    ensures r.out.Failure? ==> r.state.config == st.config && r.state.wiring == st.wiring && r.state.chroniclers == st.chroniclers
    ensures r.out.Success? ==>
              forall d :: d in doc.factories.emitter + doc.factories.chronicler ==> (d.packageName, d.factoryPath) in w.modules
    ensures r.out.Success? ==> WiredAsDeclared(r.state, st.wiring, doc.connections)
    ensures r.state.provider == RegisterFactories(st.provider, doc.factories, w.modules).0
    ensures r.state.path == st.path && r.state.loadHandler == st.loadHandler && r.state.saveHandler == st.saveHandler
    ensures r.state.applied == st.applied && r.state.disposeOnRemove == st.disposeOnRemove
    ensures OnlyDisposalsAdded(st.calls, r.state.calls)
    ensures Maestro.Valid(st) ==> Maestro.Valid(r.state)
  {
    var (p, failure) := RegisterFactories(st.provider, doc.factories, w.modules);
    var s1 := st.(provider := p);
    if failure.Some? then Run(s1, Failure(failure.value))
    else BuildAndWire(s1, doc, w)
  }

  /**
   * `load`: release everything, fetch the document, apply it, and mark the
   * configuration applied.
   */
  function Load(st: State, w: World): (r: Run<()>)
    ensures r.out.Success? <==>
              Fetch(st, w).Success? && Applicable(st.provider, st.config.formatSettings, Fetch(st, w).value, w)
    ensures Fetch(st, w).Failure? ==> r == Run(CleanUp(st), Failure(Fetch(st, w).error))
    ensures r.out.Success? ==> Fetch(st, w).Success? && r.state.config == Fetch(st, w).value && r.state.applied
    ensures r.out.Failure? ==>
              && r.state.config == st.config && r.state.applied == st.applied
              && r.state.chroniclers == [] && r.state.wiring.tracked == {}
    ensures Fetch(st, w).Success? ==> r.state.provider == RegisterFactories(st.provider, Fetch(st, w).value.factories, w.modules).0
    ensures r.out.Success? ==> WiredAsDeclared(r.state, Clear(st.wiring), Fetch(st, w).value.connections)
    ensures r.state.path == st.path && r.state.loadHandler == st.loadHandler && r.state.saveHandler == st.saveHandler
    ensures r.state.disposeOnRemove == st.disposeOnRemove
    ensures OnlyDisposalsAdded(st.calls + FanOut(Registered(st), Teardown), r.state.calls)
    ensures Maestro.Valid(st) ==> Maestro.Valid(r.state)
  {
    var s0 := CleanUp(st);
    assert Fetch(s0, w) == Fetch(st, w) && s0.wiring == Clear(st.wiring);
    match Fetch(s0, w)
    case Failure(err) => Run(s0, Failure(err))
    case Success(doc) =>
      var a := ApplyConfiguration(s0, doc, w);
      if a.out.Failure? then a
      else
        AppliedKeepsWiring(a.state, s0.wiring, doc.connections);
        Run(a.state.(applied := true), Success(()))
  }

  /**
   * A successful load, through factories whose products expose `dispose`, of
   * a document whose declared ids are distinct ignoring case, registers
   * exactly one emitter and one chronicler per declaration, in order.
   */
  lemma LoadRegistersEach(st: State, w: World)
    requires Fetch(st, w).Success?
    requires CatalogDisposable(st.provider.emitters) && CatalogDisposable(st.provider.chroniclers)
    requires ModulesDisposable(w.modules)
    requires DistinctDeclared(EmitterKind, Fetch(st, w).value.emitters, st.config.formatSettings, w.decode)
    requires DistinctDeclared(ChroniclerKind, Fetch(st, w).value.chroniclers, st.config.formatSettings, map[])
    ensures var doc := Fetch(st, w).value;
            var r := Load(st, w).state;
            Load(st, w).out.Success? ==>
            && |r.emitters| == |doc.emitters| && |r.chroniclers| == |doc.chroniclers|
            && (forall i :: 0 <= i < |doc.emitters| ==>
                  r.emitters[i].key == Lower(Declared(EmitterKind, doc.emitters[i], st.config.formatSettings, w.decode).value.id))
            && (forall i :: 0 <= i < |doc.chroniclers| ==>
                  r.chroniclers[i].key == Lower(Declared(ChroniclerKind, doc.chroniclers[i], st.config.formatSettings, map[]).value.id))
  {
    if Load(st, w).out.Success? {
      var doc := Fetch(st, w).value;
      var s0 := CleanUp(st);
      assert Fetch(s0, w) == Fetch(st, w);
      var p := RegisterFactories(s0.provider, doc.factories, w.modules);
      RegisterKeepsDisposable(s0.provider, doc.factories, w.modules);
      var s1 := s0.(provider := p.0);
      var e := CreateEmitters(s1, doc.emitters, w.decode);
      CreateEmittersRegistersEach(s1, doc.emitters, w.decode);
      var c := CreateChroniclers(e.state, doc.chroniclers);
      CreateChroniclersRegistersEach(e.state, doc.chroniclers);
      assert Load(st, w).state == CreateConnections(c.state, doc.connections).(config := doc, applied := true);
    }
  }

  /**
   * Under the same hypotheses, a successful load invokes nothing beyond the
   * teardown of what was registered before: no entity is replaced, so none is
   * disposed on the way in.
   */
  lemma LoadCallsOnlyTeardown(st: State, w: World)
    requires Fetch(st, w).Success?
    requires CatalogDisposable(st.provider.emitters) && CatalogDisposable(st.provider.chroniclers)
    requires ModulesDisposable(w.modules)
    requires DistinctDeclared(EmitterKind, Fetch(st, w).value.emitters, st.config.formatSettings, w.decode)
    requires DistinctDeclared(ChroniclerKind, Fetch(st, w).value.chroniclers, st.config.formatSettings, map[])
    ensures Load(st, w).out.Success? ==> Load(st, w).state.calls == st.calls + FanOut(Registered(st), Teardown)
  {
    if Load(st, w).out.Success? {
      var doc := Fetch(st, w).value;
      var s0 := CleanUp(st);
      assert Fetch(s0, w) == Fetch(st, w);
      var p := RegisterFactories(s0.provider, doc.factories, w.modules);
      RegisterKeepsDisposable(s0.provider, doc.factories, w.modules);
      var s1 := s0.(provider := p.0);
      var e := CreateEmitters(s1, doc.emitters, w.decode);
      CreateEmittersCallsNothing(s1, doc.emitters, w.decode);
      var c := CreateChroniclers(e.state, doc.chroniclers);
      CreateChroniclersCallsNothing(e.state, doc.chroniclers);
      assert Load(st, w).state.calls == c.state.calls;
    }
  }

  /**
   * A document that declares nothing loads: the registries and the tracked
   * set end empty, and the document is adopted.
   */
  lemma LoadEmptyDocument(st: State, w: World)
    requires Fetch(st, w).Success? && DeclaresNothing(Fetch(st, w).value)
    ensures Load(st, w).out.Success?
    ensures var r := Load(st, w).state;
            && r.emitters == [] && r.chroniclers == [] && r.wiring.tracked == {}
            && r.config == Fetch(st, w).value && r.applied
  {
    var doc := Fetch(st, w).value;
    var s0 := CleanUp(st);
    assert Fetch(s0, w) == Fetch(st, w);
    var s1 := s0.(provider := RegisterFactories(s0.provider, doc.factories, w.modules).0);
    assert s1.provider == s0.provider;
    var e := CreateEmitters(s1, doc.emitters, w.decode);
    assert e.out.Success? && e.state.emitters == [];
    var c := CreateChroniclers(e.state, doc.chroniclers);
    assert c.out.Success? && c.state.chroniclers == [];
    assert Load(st, w).state == c.state.(config := doc, applied := true);
  }

  /**
   * One factory module serving one type tag, one emitter and one chronicler
   * described inline under that tag, and one connection naming both (in any
   * case): the load succeeds, registers exactly those two, and links the
   * emitter to the chronicler through one tracked handle.
   */
  lemma LoadLinksOnePair(st: State, w: World, f: FactoryConfig, caps: Caps,
                         ed: Description, cd: Description, eref: string, cref: string)
    requires Maestro.Valid(st)
    requires (f.packageName, f.factoryPath) in w.modules && w.modules[(f.packageName, f.factoryPath)] == Factory(Some(caps))
    requires caps.dispose
    requires ed.typeTag == f.factoryType && cd.typeTag == f.factoryType
    requires SameIgnoringCase(eref, ed.id) && SameIgnoringCase(cref, cd.id)
    requires Fetch(st, w).Success?
    requires var doc := Fetch(st, w).value;
             && doc.factories == FactoryMap([f], [f])
             && doc.emitters == [EntityConfig(Inline(ed), None)]
             && doc.chroniclers == [EntityConfig(Inline(cd), None)]
             && doc.connections == [Connection([eref], [cref])]
    ensures Load(st, w).out.Success?
    ensures var r := Load(st, w).state;
            && |r.emitters| == 1 && |r.chroniclers| == 1
            && r.emitters[0].key == Lower(ed.id) && r.chroniclers[0].key == Lower(cd.id)
            && Linked(r.wiring, r.emitters[0].entity.oid, r.chroniclers[0].entity.oid)
            && |r.wiring.tracked| == 1
  {
    var doc := Fetch(st, w).value;
    var s0 := CleanUp(st);
    assert Fetch(s0, w) == Fetch(st, w);
    RegisterOne(s0.provider.emitters, f, w.modules);
    RegisterOne(s0.provider.chroniclers, f, w.modules);
    var s1 := s0.(provider := RegisterFactories(s0.provider, doc.factories, w.modules).0);
    assert RegisterFactories(s0.provider, doc.factories, w.modules).1.None?;
    OnePairBuilt(s1, doc, w, caps, ed, cd, eref, cref);
    assert ApplyConfiguration(s0, doc, w) == BuildAndWire(s1, doc, w);
  }

  /** The phases after registration, for the document of `LoadLinksOnePair`. */
  lemma OnePairBuilt(s1: State, doc: MaestroConfig, w: World, caps: Caps,
                     ed: Description, cd: Description, eref: string, cref: string)
    requires s1.emitters == [] && s1.chroniclers == []
    requires Connections.Valid(s1.wiring) && s1.wiring.tracked == {}
    requires caps.dispose
    requires ed.typeTag in s1.provider.emitters && s1.provider.emitters[ed.typeTag] == Factory(Some(caps))
    requires cd.typeTag in s1.provider.chroniclers && s1.provider.chroniclers[cd.typeTag] == Factory(Some(caps))
    requires SameIgnoringCase(eref, ed.id) && SameIgnoringCase(cref, cd.id)
    requires && doc.emitters == [EntityConfig(Inline(ed), None)]
             && doc.chroniclers == [EntityConfig(Inline(cd), None)]
             && doc.connections == [Connection([eref], [cref])]
    ensures var b := BuildAndWire(s1, doc, w);
            && b.out.Success?
            && |b.state.emitters| == 1 && |b.state.chroniclers| == 1
            && b.state.emitters[0].key == Lower(ed.id) && b.state.chroniclers[0].key == Lower(cd.id)
            && Linked(b.state.wiring, b.state.emitters[0].entity.oid, b.state.chroniclers[0].entity.oid)
            && |b.state.wiring.tracked| == 1
  {
    var e := Entity(s1.born, ed.id, caps);
    OneEmitterPhase(s1, doc.emitters, w.decode, ed, caps);
    var s2 := CreateEmitters(s1, doc.emitters, w.decode).state;
    var c := Entity(s2.born, cd.id, caps);
    OneChroniclerPhase(s2, doc.chroniclers, cd, caps);
    var s3 := CreateChroniclers(s2, doc.chroniclers).state;
    OneConnectionPhase(s3, e, c, eref, cref);
    var s4 := CreateConnections(s3, doc.connections);
    assert BuildAndWire(s1, doc, w).state == s4.(config := doc);
  }

  lemma OneEmitterPhase(s1: State, cfgs: seq<EntityConfig>, decode: map<(string, FormatSettings), Description>,
                        ed: Description, caps: Caps)
    requires s1.emitters == [] && cfgs == [EntityConfig(Inline(ed), None)] && caps.dispose
    requires ed.typeTag in s1.provider.emitters && s1.provider.emitters[ed.typeTag] == Factory(Some(caps))
    ensures CreateEmitters(s1, cfgs, decode).out.Success?
    ensures CreateEmitters(s1, cfgs, decode).state.emitters == [Entry(Lower(ed.id), Entity(s1.born, ed.id, caps))]
  {
    var e := Entity(s1.born, ed.id, caps);
    assert Resolve(EmitterKind, s1.provider.emitters, cfgs[0], s1.config.formatSettings, decode) == Success(Blueprint(ed.id, caps));
    var b := BuildAll(EmitterKind, s1.provider.emitters, cfgs, s1.config.formatSettings, decode, s1.born);
    assert b.Success? && |b.value| == 1 && b.value[0] == e;
    assert b.value == [e];
    AddEmitterAppendsFresh(s1.(born := s1.born + 1), e);
    assert [e][1..] == [] && [] + [Entry(Lower(ed.id), e)] == [Entry(Lower(ed.id), e)];
    assert AddAllEmitters(s1.(born := s1.born + 1), [e]) == AddEmitter(s1.(born := s1.born + 1), Live(e)).state;
    assert CreateEmitters(s1, cfgs, decode).state == AddAllEmitters(s1.(born := s1.born + 1), [e]);
  }

  lemma OneChroniclerPhase(s2: State, cfgs: seq<EntityConfig>, cd: Description, caps: Caps)
    requires s2.chroniclers == [] && cfgs == [EntityConfig(Inline(cd), None)] && caps.dispose
    requires cd.typeTag in s2.provider.chroniclers && s2.provider.chroniclers[cd.typeTag] == Factory(Some(caps))
    ensures CreateChroniclers(s2, cfgs).out.Success?
    ensures CreateChroniclers(s2, cfgs).state.chroniclers == [Entry(Lower(cd.id), Entity(s2.born, cd.id, caps))]
  {
    var c := Entity(s2.born, cd.id, caps);
    assert Resolve(ChroniclerKind, s2.provider.chroniclers, cfgs[0], s2.config.formatSettings, map[]) == Success(Blueprint(cd.id, caps));
    var b := BuildAll(ChroniclerKind, s2.provider.chroniclers, cfgs, s2.config.formatSettings, map[], s2.born);
    assert b.Success? && |b.value| == 1 && b.value[0] == c;
    assert b.value == [c];
    AddChroniclerAppendsFresh(s2.(born := s2.born + 1), c);
    assert [c][1..] == [] && [] + [Entry(Lower(cd.id), c)] == [Entry(Lower(cd.id), c)];
    assert AddAllChroniclers(s2.(born := s2.born + 1), [c]) == AddChronicler(s2.(born := s2.born + 1), Live(c)).state;
    assert CreateChroniclers(s2, cfgs).state == AddAllChroniclers(s2.(born := s2.born + 1), [c]);
  }

  lemma OneConnectionPhase(s3: State, e: Entity, c: Entity, eref: string, cref: string)
    requires s3.emitters == [Entry(Lower(e.id), e)] && s3.chroniclers == [Entry(Lower(c.id), c)]
    requires SameIgnoringCase(eref, e.id) && SameIgnoringCase(cref, c.id)
    requires Connections.Valid(s3.wiring) && s3.wiring.tracked == {}
    ensures var r := CreateConnections(s3, [Connection([eref], [cref])]);
            Linked(r.wiring, e.oid, c.oid) && |r.wiring.tracked| == 1
  {
    var conns := [Connection([eref], [cref])];
    SameKeyIffSameIgnoringCase(eref, e.id);
    SameKeyIffSameIgnoringCase(cref, c.id);
    ResolveOne(s3.emitters, eref);
    ResolveOne(s3.chroniclers, cref);
    assert e in ResolveIds(s3.emitters, conns[0].emitters);
    assert c in ResolveIds(s3.chroniclers, conns[0].chroniclers);
  }

  /**
   * Recreated emitters without settings of their own are decoded under the
   * settings the instance held BEFORE this load, not the document's: a first
   * emitter whose state decodes only under the document's settings fails the
   * load.
   */
  lemma LoadDecodesWithPriorSettings(st: State, w: World, text: string)
    requires Fetch(st, w).Success?
    requires var doc := Fetch(st, w).value;
             forall d :: d in doc.factories.emitter + doc.factories.chronicler ==> (d.packageName, d.factoryPath) in w.modules
    requires var doc := Fetch(st, w).value;
             |doc.emitters| > 0 && doc.emitters[0] == EntityConfig(Serialized(text), None)
    requires (text, st.config.formatSettings) !in w.decode
    ensures Load(st, w).out == Failure(DecodeFailed)
  {
    var doc := Fetch(st, w).value;
    var s0 := CleanUp(st);
    assert Fetch(s0, w) == Fetch(st, w);
    var s1 := s0.(provider := RegisterFactories(s0.provider, doc.factories, w.modules).0);
    assert Resolve(EmitterKind, s1.provider.emitters, doc.emitters[0], s1.config.formatSettings, w.decode) == Failure(DecodeFailed);
  }

  /** What `start()` or `stop()` does to one entity. */
  function ServiceOp(start: bool): Entity -> multiset<Call> {
    if start then StartCall else StopCall
  }

  /** `serviceCallEntities`: load first if nothing is applied, then start or stop every service. */
  function ServiceCall(st: State, w: World, start: bool): (r: Run<()>)
    ensures st.applied ==> r.out.Success? && r.state == st.(calls := r.state.calls)
    ensures !st.applied && Load(st, w).out.Failure? ==> r == Load(st, w)
    ensures !st.applied && Load(st, w).out.Success? ==> r.state == Load(st, w).state.(calls := r.state.calls)
    ensures r.out.Success? ==> r.state.applied
    ensures st.applied ==> r.state.calls == st.calls + FanOut(Registered(st), ServiceOp(start))
    ensures !st.applied && Load(st, w).out.Success? ==>
              r.state.calls == Load(st, w).state.calls + FanOut(Registered(Load(st, w).state), ServiceOp(start))
  {
    var f := ServiceOp(start);
    if st.applied then Run(st.(calls := st.calls + FanOut(Registered(st), f)), Success(()))
    else
      var l := Load(st, w);
      if l.out.Failure? then l
      else Run(l.state.(calls := l.state.calls + FanOut(Registered(l.state), f)), Success(()))
  }

  function Start(st: State, w: World): Run<()> {
    ServiceCall(st, w, true)
  }

  function Stop(st: State, w: World): Run<()> {
    ServiceCall(st, w, false)
  }

  /**
   * The state `start` and `stop` fan out over: the current one when a
   * configuration is applied, otherwise the one the initial load leaves.
   */
  function Prepared(st: State, w: World): State {
    if st.applied then st else Load(st, w).state
  }

  /**
   * Whether or not a configuration was applied before, once the state to run
   * on is ready (the initial load succeeded), `start` calls `start` exactly
   * once on each entity registered there that is a service (identities being
   * distinct) and never on any other, and `stop` likewise calls `stop`.
   */
  lemma StartStopEachServiceOnce(st: State, w: World, e: Entity)
    ensures var b := Prepared(st, w);
            (st.applied || Load(st, w).out.Success?) && DistinctOids(Registered(b)) && e in Registered(b) ==>
              && Start(st, w).out.Success? && Stop(st, w).out.Success?
              && Start(st, w).state.calls[Call(e.oid, Op.Start)] == b.calls[Call(e.oid, Op.Start)] + (if IsService(e) then 1 else 0)
              && Stop(st, w).state.calls[Call(e.oid, Op.Stop)] == b.calls[Call(e.oid, Op.Stop)] + (if IsService(e) then 1 else 0)
  {
    var b := Prepared(st, w);
    if (st.applied || Load(st, w).out.Success?) && DistinctOids(Registered(b)) && e in Registered(b) {
      ServiceCallsAreAimed();
      FanOutReachesEachOnce(Registered(b), StartCall, e, Call(e.oid, Op.Start));
      FanOutReachesEachOnce(Registered(b), StopCall, e, Call(e.oid, Op.Stop));
    }
  }

  /** A second `start` after a successful one does not reload: the registries and wiring stay. */
  lemma StartDoesNotReload(st: State, w: World)
    ensures var s := Start(st, w).state;
            var t := Start(s, w).state;
            Start(st, w).out.Success? ==>
              t.emitters == s.emitters && t.chroniclers == s.chroniclers && t.wiring == s.wiring && t.config == s.config
  {
  }
}

=== FILE: maestro.dfy ===
/**
 * The orchestrator's state and the operations on its registries: the
 * constructor, `addEmitter` / `removeEmitter`, `addChronicler` /
 * `removeChronicler`, and `cleanUpResources`.
 */
module Maestro {

  import opened Wrappers
  import opened Errors
  import opened Casing
  import opened Config
  import opened Entities
  import opened Registry
  import opened Connections
  import opened Factories

  datatype State = State(
    emitters: Table,
    chroniclers: Table,
    wiring: Wiring,
    /** Every call made on an entity so far. */
    calls: multiset<Call>,
    /** The configuration snapshot (`_config`). */
    config: MaestroConfig,
    applied: bool,
    /** `_configFilePath`; a path is given exactly when the configuration was. */
    path: Option<string>,
    loadHandler: bool,
    saveHandler: bool,
    disposeOnRemove: bool,
    provider: Provider,
    /** Identities below `born` may belong to entities built so far. */
    born: Oid)

  /** The state after an operation that may reject, including the effects it had before rejecting. */
  datatype Run<T> = Run(state: State, out: Result<T, Error>)

  /** Registries keyed by lower-cased id, at most one entity per key, and fresh wiring identities. */
  predicate Valid(st: State) {
    WellFormed(st.emitters) && WellFormed(st.chroniclers) && Connections.Valid(st.wiring)
  }

  /** `if (this._configFilePath)`: an empty path is falsy. */
  predicate HasPath(st: State) {
    st.path.Some? && st.path.value != ""
  }

  /** Every registered entity, emitters first, as `cleanUpResources` and `start` walk them. */
  function Registered(st: State): seq<Entity> {
    Values(st.emitters) + Values(st.chroniclers)
  }

  // ---------------------------------------------------------------- construction

  datatype ConfigOption = FilePath(file: string) | Document(doc: MaestroConfig)

  /** `IMaestroOptions`; the logger is left out, the handlers are present or absent. */
  datatype Options = Options(
    disposeOnRemove: Option<bool>,
    config: ConfigOption,
    loadHandler: bool,
    saveHandler: bool)

  /** `options.disposeOnRemove || true`. */
  function OrTrue(b: Option<bool>): bool {
    (b.Some? && b.value) || true
  }

  /**
   * The constructor. `fileRead` is what reading and parsing the configured file
   * yields (nothing when either fails); `uuid` is the identifier generated for
   * the fallback document; `provider` is the process-wide factory provider.
   */
  function Create(opts: Options, fileRead: Option<MaestroConfig>, uuid: string, provider: Provider): (st: State)
    ensures Valid(st)
    ensures st.disposeOnRemove
    ensures st.emitters == [] && st.chroniclers == [] && st.wiring.tracked == {} && !st.applied
    ensures opts.config.FilePath? ==>
              && st.path == Some(opts.config.file)
              && !st.loadHandler && !st.saveHandler
              && st.config == (if fileRead.Some? then fileRead.value else DefaultDocument(uuid))
    ensures opts.config.Document? ==>
              && st.path.None?
              && st.loadHandler == opts.loadHandler && st.saveHandler == opts.saveHandler
              && st.config == opts.config.doc
  {
    var base := State([], [], Wiring({}, {}, 0), multiset{}, DefaultDocument(uuid), false,
                      None, false, false, OrTrue(opts.disposeOnRemove), provider, 0);
    match opts.config
    case FilePath(p) =>
      base.(path := Some(p), config := fileRead.GetOr(DefaultDocument(uuid)))
    case Document(doc) =>
      base.(loadHandler := opts.loadHandler, saveHandler := opts.saveHandler, config := doc)
  }

  // ---------------------------------------------------------------- teardown

  /**
   * `cleanUpResources`: dispose (asynchronously when possible) and stop every
   * emitter and chronicler, dispose every tracked handle, then empty all three
   * collections.
   */
  function CleanUp(st: State): (r: State)
    ensures r.emitters == [] && r.chroniclers == [] && r.wiring.tracked == {}
    ensures r.wiring == Clear(st.wiring)
    ensures r.calls == st.calls + FanOut(Registered(st), Teardown)
    ensures r.config == st.config && r.applied == st.applied && r.provider == st.provider
    ensures r.path == st.path && r.loadHandler == st.loadHandler && r.saveHandler == st.saveHandler
    ensures r.born == st.born && r.disposeOnRemove == st.disposeOnRemove
    ensures Valid(st) ==> Valid(r)
  {
    st.(emitters := [], chroniclers := [], wiring := Clear(st.wiring),
        calls := st.calls + FanOut(Registered(st), Teardown))
  }

  /**
   * Each registered entity (identities being distinct) is disposed exactly once,
   * by `disposeAsync` when it has one and otherwise by `dispose`, and is
   * stopped once, by `stop` or else `stopPolling`.
   */
  lemma CleanUpDisposesEachOnce(st: State, e: Entity)
    requires DistinctOids(Registered(st)) && e in Registered(st)
    ensures var n := CleanUp(st).calls;
            && n[Call(e.oid, DisposeAsync)] == st.calls[Call(e.oid, DisposeAsync)] + (if e.caps.disposeAsync then 1 else 0)
            && n[Call(e.oid, Dispose)] == st.calls[Call(e.oid, Dispose)] + (if !e.caps.disposeAsync && e.caps.dispose then 1 else 0)
            && n[Call(e.oid, Stop)] == st.calls[Call(e.oid, Stop)] + (if e.caps.stop then 1 else 0)
            && n[Call(e.oid, StopPolling)] == st.calls[Call(e.oid, StopPolling)] + (if !e.caps.stop && e.caps.stopPolling then 1 else 0)
  {
    TeardownIsAimed();
    FanOutReachesEachOnce(Registered(st), Teardown, e, Call(e.oid, DisposeAsync));
    FanOutReachesEachOnce(Registered(st), Teardown, e, Call(e.oid, Dispose));
    FanOutReachesEachOnce(Registered(st), Teardown, e, Call(e.oid, Stop));
    FanOutReachesEachOnce(Registered(st), Teardown, e, Call(e.oid, StopPolling));
  }

  /** A second cleanup finds nothing left to dispose and changes nothing. */
  lemma CleanUpTwice(st: State)
    ensures CleanUp(CleanUp(st)) == CleanUp(st)
  {
  }

  // ---------------------------------------------------------------- registries

  /** The argument of `addEmitter` / `addChronicler`: a live entity or an inline description. */
  datatype Offered = Live(entity: Entity) | Described(desc: Description)

  function OfferedId(a: Offered): string {
    match a
    case Live(e) => e.id
    case Described(d) => d.id
  }

  /** The argument of `removeEmitter` / `removeChronicler`: an id or an entity (`getKey`). */
  datatype Target = ById(id: string) | ByEntity(entity: Entity)

  function TargetId(t: Target): string {
    match t
    case ById(id) => id
    case ByEntity(e) => e.id
  }

  /** `getKey`: the all-lower-case spelling of the target's id. */
  function Key(t: Target): (k: string)
    ensures IsLower(k) && SameIgnoringCase(k, TargetId(t))
  {
    var id := TargetId(t);
    LowerIsCanonical(id);
    SameKeyIffSameIgnoringCase(Lower(id), id);
    Lower(id)
  }

  /**
   * What `add*` stores for its argument: an object with a `dispose` method as
   * it is; anything else is handed to the factory as a description, and a live
   * object carries no type tag for the factory to look up.
   */
  function Admit(cat: Catalog, a: Offered, oid: Oid): (r: Result<Entity, Error>)
    ensures r.Success? ==> r.value.id == OfferedId(a)
    ensures a.Live? && a.entity.caps.dispose ==> r == Success(a.entity)
    ensures a.Live? && !a.entity.caps.dispose ==> r.Failure?
    ensures a.Described? ==>
              && (r.Success? <==> Build(cat, a.desc).Success?)
              && (r.Success? ==> r.value == Spawn(Build(cat, a.desc).value, oid))
              && (r.Failure? ==> r.error == Build(cat, a.desc).error)
    ensures a.Described? && a.desc.typeTag !in cat ==> r == Failure(FactoryNotFound(a.desc.typeTag))
  {
    match a
    case Live(e) => if e.caps.dispose then Success(e) else Failure(Untyped(e.id))
    case Described(d) =>
      match Build(cat, d)
      case Failure(err) => Failure(err)
      case Success(b) => Success(Spawn(b, oid))
  }

  /** What replacing an emitter does to the prior one: `dispose` if present, and `disposeAsync` if present. */
  function EmitterReplaceCalls(prior: Entity): (m: multiset<Call>)
    ensures m[Call(prior.oid, Dispose)] == (if prior.caps.dispose then 1 else 0)
    ensures m[Call(prior.oid, DisposeAsync)] == (if prior.caps.disposeAsync then 1 else 0)
    ensures forall c :: c in m ==> c.target == prior.oid && IsDisposal(c)
  {
    (if prior.caps.dispose then multiset{Call(prior.oid, Dispose)} else multiset{})
    + (if prior.caps.disposeAsync then multiset{Call(prior.oid, DisposeAsync)} else multiset{})
  }

  /**
   * `addEmitter`: under the lower-cased id, dispose a previous emitter (when
   * disposal on remove is on), then store the admitted emitter.
   */
  function AddEmitter(st: State, a: Offered): (r: Run<()>)
    ensures var key := Lower(OfferedId(a));
            && (r.out.Success? <==> Admit(st.provider.emitters, a, st.born).Success?)
            && (r.out.Success? ==> Get(r.state.emitters, key) == Some(Admit(st.provider.emitters, a, st.born).value))
            && (r.out.Failure? ==> r.out.error == Admit(st.provider.emitters, a, st.born).error)
            && (forall k :: k != key ==> Get(r.state.emitters, k) == Get(st.emitters, k))
            && (r.state.calls == st.calls +
                  if Has(st.emitters, key) && st.disposeOnRemove
                  then EmitterReplaceCalls(Get(st.emitters, key).value) else multiset{})
            && (r.out.Failure? ==> r.state.emitters == st.emitters)
            && (UniqueKeys(st.emitters) ==>
                  |r.state.emitters| == |st.emitters| + (if r.out.Failure? || Has(st.emitters, key) then 0 else 1))
    ensures a.Live? && a.entity.caps.dispose ==>
              r.out.Success? && Get(r.state.emitters, Lower(a.entity.id)) == Some(a.entity)
    ensures a.Live? && a.entity.caps.dispose && !Has(st.emitters, Lower(a.entity.id)) ==>
              r.state.emitters == st.emitters + [Entry(Lower(a.entity.id), a.entity)]
    ensures r.state.chroniclers == st.chroniclers && r.state.wiring == st.wiring
    ensures r.state.config == st.config && r.state.provider == st.provider && r.state.applied == st.applied
    ensures r.state.path == st.path && r.state.loadHandler == st.loadHandler && r.state.saveHandler == st.saveHandler
    ensures r.state.disposeOnRemove == st.disposeOnRemove && r.state.born >= st.born
    ensures Valid(st) ==> Valid(r.state)
  {
    var key := Lower(OfferedId(a));
    var s1 := if Has(st.emitters, key) && st.disposeOnRemove
              then st.(calls := st.calls + EmitterReplaceCalls(Get(st.emitters, key).value))
              else st;
    match Admit(st.provider.emitters, a, st.born)
    case Failure(err) => Run(s1, Failure(err))
    case Success(e) =>
      PutKeepsWellFormedIfValid(st.emitters, e);
      Run(s1.(emitters := Put(s1.emitters, key, e), born := st.born + 1), Success(()))
  }

  lemma PutKeepsWellFormedIfValid(t: Table, e: Entity)
    ensures WellFormed(t) ==> WellFormed(Put(t, Lower(e.id), e))
  {
  }

  /**
   * `addChronicler`: under the lower-cased id, call `dispose` on a previous
   * chronicler (when disposal on remove is on; one without `dispose` makes the
   * call throw), then store the admitted chronicler.
   */
  function AddChronicler(st: State, a: Offered): (r: Run<()>)
    ensures var key := Lower(OfferedId(a));
            && (r.out.Success? <==>
                  && (Has(st.chroniclers, key) && st.disposeOnRemove ==> Get(st.chroniclers, key).value.caps.dispose)
                  && Admit(st.provider.chroniclers, a, st.born).Success?)
            && (r.out.Success? ==> Get(r.state.chroniclers, key) == Some(Admit(st.provider.chroniclers, a, st.born).value))
            && (forall k :: k != key ==> Get(r.state.chroniclers, k) == Get(st.chroniclers, k))
            && (r.out.Failure? ==> r.state.chroniclers == st.chroniclers)
            && (Has(st.chroniclers, key) && st.disposeOnRemove ==>
                  var prior := Get(st.chroniclers, key).value;
                  if prior.caps.dispose then r.state.calls == st.calls + multiset{Call(prior.oid, Dispose)}
                  else r == Run(st, Failure(NotDisposable(key))))
            && (!(Has(st.chroniclers, key) && st.disposeOnRemove) ==> r.state.calls == st.calls)
            && (UniqueKeys(st.chroniclers) ==>
                  |r.state.chroniclers| == |st.chroniclers| + (if r.out.Failure? || Has(st.chroniclers, key) then 0 else 1))
    ensures a.Live? && a.entity.caps.dispose && !Has(st.chroniclers, Lower(a.entity.id)) ==>
              r.out.Success? && r.state.chroniclers == st.chroniclers + [Entry(Lower(a.entity.id), a.entity)]
    ensures r.state.emitters == st.emitters && r.state.wiring == st.wiring
    ensures r.state.config == st.config && r.state.provider == st.provider && r.state.applied == st.applied
    ensures r.state.path == st.path && r.state.loadHandler == st.loadHandler && r.state.saveHandler == st.saveHandler
    ensures r.state.disposeOnRemove == st.disposeOnRemove && r.state.born >= st.born
    ensures Valid(st) ==> Valid(r.state)
  {
    var key := Lower(OfferedId(a));
    if Has(st.chroniclers, key) && st.disposeOnRemove && !Get(st.chroniclers, key).value.caps.dispose then
      Run(st, Failure(NotDisposable(key)))
    else
      var s1 := if Has(st.chroniclers, key) && st.disposeOnRemove
                then st.(calls := st.calls + multiset{Call(Get(st.chroniclers, key).value.oid, Dispose)})
                else st;
      match Admit(st.provider.chroniclers, a, st.born)
      case Failure(err) => Run(s1, Failure(err))
      case Success(c) =>
        PutKeepsWellFormedIfValid(st.chroniclers, c);
        Run(s1.(chroniclers := Put(s1.chroniclers, key, c), born := st.born + 1), Success(()))
  }

  /**
   * `removeEmitter`: an absent key is a no-op; a present one has `dispose`
   * called (when disposal on remove is on; one without `dispose` throws) and
   * only that key is deleted.
   */
  function RemoveEmitter(st: State, t: Target): (r: Run<()>)
    ensures !Has(st.emitters, Key(t)) ==> r == Run(st, Success(()))
    ensures Has(st.emitters, Key(t)) && r.out.Success? ==>
              && !Has(r.state.emitters, Key(t))
              && (forall k :: k != Key(t) ==> Get(r.state.emitters, k) == Get(st.emitters, k))
              && (UniqueKeys(st.emitters) ==> |r.state.emitters| == |st.emitters| - 1)
              && r.state.calls == st.calls +
                   if st.disposeOnRemove then multiset{Call(Get(st.emitters, Key(t)).value.oid, Dispose)} else multiset{}
    ensures r.out.Failure? <==>
              Has(st.emitters, Key(t)) && st.disposeOnRemove && !Get(st.emitters, Key(t)).value.caps.dispose
    ensures r.out.Failure? ==> r.state == st
    ensures r.state == st.(emitters := r.state.emitters, calls := r.state.calls)
    ensures Valid(st) ==> Valid(r.state)
  {
    var key := Key(t);
    if !Has(st.emitters, key) then Run(st, Success(()))
    else
      var prior := Get(st.emitters, key).value;
      if st.disposeOnRemove && !prior.caps.dispose then Run(st, Failure(NotDisposable(key)))
      else
        var calls := if st.disposeOnRemove then st.calls + multiset{Call(prior.oid, Dispose)} else st.calls;
        DeleteWellFormed(st.emitters, key);
        Run(st.(emitters := Delete(st.emitters, key), calls := calls), Success(()))
  }

  lemma DeleteWellFormed(t: Table, k: string)
    ensures UniqueKeys(t) ==> |Delete(t, k)| == if Has(t, k) then |t| - 1 else |t|
    ensures WellFormed(t) ==> WellFormed(Delete(t, k))
  {
    if UniqueKeys(t) {
      DeleteSize(t, k);
    }
    if WellFormed(t) {
      DeleteKeepsWellFormed(t, k);
    }
  }

  /**
   * `removeChronicler`: an absent key is a no-op; a present one is cleaned up
   * as in `cleanUpIfDisposable` (when disposal on remove is on) and only that
   * key is deleted.
   */
  function RemoveChronicler(st: State, t: Target): (r: Run<()>)
    ensures r.out.Success?
    ensures !Has(st.chroniclers, Key(t)) ==> r.state == st
    ensures Has(st.chroniclers, Key(t)) ==>
              && !Has(r.state.chroniclers, Key(t))
              && (forall k :: k != Key(t) ==> Get(r.state.chroniclers, k) == Get(st.chroniclers, k))
              && (UniqueKeys(st.chroniclers) ==> |r.state.chroniclers| == |st.chroniclers| - 1)
              && r.state.calls == st.calls +
                   if st.disposeOnRemove then CleanUpIfDisposable(Get(st.chroniclers, Key(t)).value) else multiset{}
    ensures r.state == st.(chroniclers := r.state.chroniclers, calls := r.state.calls)
    ensures Valid(st) ==> Valid(r.state)
  {
    var key := Key(t);
    if !Has(st.chroniclers, key) then Run(st, Success(()))
    else
      var prior := Get(st.chroniclers, key).value;
      var calls := if st.disposeOnRemove then st.calls + CleanUpIfDisposable(prior) else st.calls;
      DeleteWellFormed(st.chroniclers, key);
      Run(st.(chroniclers := Delete(st.chroniclers, key), calls := calls), Success(()))
  }

  /**
   * Adding two live emitters whose ids differ only in case leaves one entry,
   * holding the second, after exactly one `dispose` of the first.
   */
  lemma AddSameIdTwice(st: State, e1: Entity, e2: Entity)
    requires st.disposeOnRemove
    requires e1.caps.dispose && e2.caps.dispose && !e1.caps.disposeAsync
    requires SameIgnoringCase(e1.id, e2.id)
    requires UniqueKeys(st.emitters) && !Has(st.emitters, Lower(e1.id))
    ensures var s1 := AddEmitter(st, Live(e1)).state;
            var s2 := AddEmitter(s1, Live(e2)).state;
            && Get(s2.emitters, Lower(e1.id)) == Some(e2)
            && |s2.emitters| == |st.emitters| + 1
            && s2.calls == st.calls + multiset{Call(e1.oid, Dispose)}
  {
    SameKeyIffSameIgnoringCase(e1.id, e2.id);
    var s1 := AddEmitter(st, Live(e1)).state;
    assert Get(s1.emitters, Lower(e1.id)) == Some(e1);
    assert |s1.emitters| == |st.emitters| + 1;
  }

  /**
   * Adding an emitter under a fresh id and then removing it by that id in any
   * case restores the registry, after exactly one `dispose` of it.
   */
  lemma AddThenRemoveEmitter(st: State, e: Entity, id: string)
    requires st.disposeOnRemove && e.caps.dispose
    requires !Has(st.emitters, Lower(e.id)) && SameIgnoringCase(id, e.id)
    ensures var s1 := AddEmitter(st, Live(e)).state;
            var s2 := RemoveEmitter(s1, ById(id));
            && s2.out.Success?
            && s2.state.emitters == st.emitters
            && s2.state.calls == st.calls + multiset{Call(e.oid, Dispose)}
  {
    SameKeyIffSameIgnoringCase(id, e.id);
    DeleteUndoesAppend(st.emitters, Lower(e.id), e);
  }

  /**
   * Adding a chronicler under a fresh id and then removing it by that id in any
   * case restores the registry, after it is cleaned up once.
   */
  lemma AddThenRemoveChronicler(st: State, c: Entity, id: string)
    requires st.disposeOnRemove && c.caps.dispose
    requires !Has(st.chroniclers, Lower(c.id)) && SameIgnoringCase(id, c.id)
    ensures var s1 := AddChronicler(st, Live(c)).state;
            var s2 := RemoveChronicler(s1, ById(id));
            && s2.state.chroniclers == st.chroniclers
            && s2.state.calls == st.calls + CleanUpIfDisposable(c)
  {
    SameKeyIffSameIgnoringCase(id, c.id);
    DeleteUndoesAppend(st.chroniclers, Lower(c.id), c);
  }
}

=== FILE: registry.dfy ===
/**
 * An entity registry: the insertion-ordered map from lower-cased id to live
 * entity that the orchestrator keeps for emitters and for chroniclers. Setting
 * an existing key replaces the value in place, as a JavaScript `Map` does.
 */
module Registry {

  import opened Wrappers
  import opened Entities
  import opened Casing

  datatype Entry = Entry(key: string, entity: Entity)

  type Table = seq<Entry>

  /** The position of the first entry under key `k`. */
  function Find(t: Table, k: string): (r: Option<nat>)
    ensures r.Some? ==> r.value < |t| && t[r.value].key == k
    ensures r.Some? ==> forall j :: 0 <= j < r.value ==> t[j].key != k
    ensures r.None? <==> forall j :: 0 <= j < |t| ==> t[j].key != k
  {
    if t == [] then None
    else if t[0].key == k then Some(0)
    else match Find(t[1..], k)
      case None => None
      case Some(i) => Some(i + 1)
  }

  predicate Has(t: Table, k: string) {
    Find(t, k).Some?
  }

  function Get(t: Table, k: string): Option<Entity> {
    match Find(t, k)
    case None => None
    case Some(i) => Some(t[i].entity)
  }

  function Keys(t: Table): set<string> {
    set i | 0 <= i < |t| :: t[i].key
  }

  /** The live entities in insertion order (`Map.prototype.values`). */
  function Values(t: Table): (vs: seq<Entity>)
    ensures |vs| == |t|
    ensures forall i :: 0 <= i < |t| ==> vs[i] == t[i].entity
  {
    seq(|t|, i requires 0 <= i < |t| => t[i].entity)
  }

  /** At most one entry per key. */
  predicate UniqueKeys(t: Table) {
    forall i, j :: 0 <= i < j < |t| ==> t[i].key != t[j].key
  }

  /** Every entry sits under its entity's lower-cased id. */
  predicate KeyedById(t: Table) {
    forall i :: 0 <= i < |t| ==> t[i].key == Lower(t[i].entity.id)
  }

  predicate WellFormed(t: Table) {
    UniqueKeys(t) && KeyedById(t)
  }

  lemma HasIffKey(t: Table, k: string)
    ensures Has(t, k) <==> k in Keys(t)
  {
  }

  /** Lookups see only the keys, position by position. */
  lemma FindSeesKeysOnly(t: Table, u: Table, k: string)
    requires |t| == |u|
    requires forall j :: 0 <= j < |t| ==> t[j].key == u[j].key
    ensures Find(t, k) == Find(u, k)
  {
  }

  /** Overwriting the entry at position `i` (which holds key `k`) changes only what `k` looks up. */
  lemma ReplaceAt(t: Table, i: nat, k: string, e: Entity)
    requires Find(t, k) == Some(i)
    ensures Get(t[i := Entry(k, e)], k) == Some(e)
    ensures forall k' :: k' != k ==> Get(t[i := Entry(k, e)], k') == Get(t, k')
    ensures Keys(t[i := Entry(k, e)]) == Keys(t)
  {
    var r := t[i := Entry(k, e)];
    FindSeesKeysOnly(t, r, k);
    forall k' | k' != k
      ensures Get(r, k') == Get(t, k')
    {
      FindSeesKeysOnly(t, r, k');
    }
    forall x | x in Keys(t) ensures x in Keys(r) {
      var j :| 0 <= j < |t| && t[j].key == x;
      assert r[j].key == x;
    }
  }

  /** Appending an entry under a fresh key `k` changes only what `k` looks up. */
  lemma AppendFresh(t: Table, k: string, e: Entity)
    requires !Has(t, k)
    ensures Get(t + [Entry(k, e)], k) == Some(e)
    ensures forall k' :: k' != k ==> Get(t + [Entry(k, e)], k') == Get(t, k')
    ensures Keys(t + [Entry(k, e)]) == Keys(t) + {k}
  {
    var r := t + [Entry(k, e)];
    assert forall j :: 0 <= j < |t| ==> r[j] == t[j];
    assert r[|t|].key == k;
    assert Find(r, k) == Some(|t|);
    forall k' | k' != k
      ensures Get(r, k') == Get(t, k')
    {
      match Find(t, k')
      case None =>
        assert Find(r, k').None?;
      case Some(j) =>
        assert Find(r, k') == Some(j);
    }
    assert r[|t|].key == k;
    forall x | x in Keys(t) ensures x in Keys(r) {
      var j :| 0 <= j < |t| && t[j].key == x;
      assert r[j].key == x;
    }
  }

  /** `Map.prototype.set`. */
  function Put(t: Table, k: string, e: Entity): (r: Table)
    ensures Get(r, k) == Some(e)
    ensures forall k' :: k' != k ==> Get(r, k') == Get(t, k')
    ensures Keys(r) == Keys(t) + {k}
    ensures |r| == if Has(t, k) then |t| else |t| + 1
    ensures !Has(t, k) ==> r == t + [Entry(k, e)]
    ensures forall j :: 0 <= j < |r| ==> r[j] == Entry(k, e) || (j < |t| && r[j] == t[j])
    ensures UniqueKeys(t) ==> UniqueKeys(r)
  {
    match Find(t, k)
    case Some(i) =>
      ReplaceAt(t, i, k, e);
      t[i := Entry(k, e)]
    case None =>
      AppendFresh(t, k, e);
      t + [Entry(k, e)]
  }

  /** Splitting off the head of a table splits its key set. */
  lemma KeysCons(t: Table)
    requires t != []
    ensures Keys(t) == {t[0].key} + Keys(t[1..])
  {
  }

  /** Keeping the head `x` in front of the filtered tail `rest` keeps every lookup but `k`'s. */
  lemma DeleteKeepsHead(t: Table, rest: Table, k: string)
    requires t != [] && t[0].key != k
    requires !Has(rest, k)
    requires forall k' :: k' != k ==> Get(rest, k') == Get(t[1..], k')
    requires Keys(rest) == Keys(t[1..]) - {k}
    requires UniqueKeys(t[1..]) ==> UniqueKeys(rest)
    ensures !Has([t[0]] + rest, k)
    ensures forall k' :: k' != k ==> Get([t[0]] + rest, k') == Get(t, k')
    ensures Keys([t[0]] + rest) == Keys(t) - {k}
    ensures UniqueKeys(t) ==> UniqueKeys([t[0]] + rest)
  {
    var r := [t[0]] + rest;
    assert r[1..] == rest;
    forall k' | k' != k
      ensures Get(r, k') == Get(t, k')
    {
      if t[0].key != k' {
        assert Find(r, k') == match Find(rest, k') case None => None case Some(i) => Some(i + 1);
        assert Find(t, k') == match Find(t[1..], k') case None => None case Some(i) => Some(i + 1);
        assert Get(rest, k') == Get(t[1..], k');
        match Find(rest, k')
        case None =>
          assert Find(t[1..], k').None?;
        case Some(i) =>
          var m := Find(t[1..], k').value;
          assert r[i + 1] == rest[i];
          assert t[m + 1] == t[1..][m];
      }
    }
    KeysCons(t);
    KeysCons(r);
    if UniqueKeys(t) {
      assert t[0].key !in Keys(t[1..]);
    }
  }

  /** Dropping a head entry under `k` in front of the filtered tail `rest` keeps every lookup but `k`'s. */
  lemma DeleteDropsHead(t: Table, rest: Table, k: string)
    requires t != [] && t[0].key == k
    requires forall k' :: k' != k ==> Get(rest, k') == Get(t[1..], k')
    requires UniqueKeys(t[1..]) ==> UniqueKeys(rest)
    ensures forall k' :: k' != k ==> Get(rest, k') == Get(t, k')
    ensures UniqueKeys(t) ==> UniqueKeys(rest)
  {
    forall k' | k' != k
      ensures Get(rest, k') == Get(t, k')
    {
      assert Find(t, k') == match Find(t[1..], k') case None => None case Some(i) => Some(i + 1);
      match Find(t[1..], k')
      case None =>
      case Some(m) =>
        assert t[m + 1] == t[1..][m];
    }
    TailUnique(t);
  }

  lemma TailUnique(t: Table)
    requires t != []
    ensures UniqueKeys(t) ==> UniqueKeys(t[1..]) && t[0].key !in Keys(t[1..])
  {
    if UniqueKeys(t) {
      forall i, j | 0 <= i < j < |t[1..]| ensures t[1..][i].key != t[1..][j].key {
        assert t[1..][i] == t[i + 1] && t[1..][j] == t[j + 1];
      }
    }
  }

  /** With unique keys, removing the head entry under `k` is keeping the tail as it is. */
  lemma DeleteHeadSplice(t: Table, rest: Table, k: string)
    requires t != [] && t[0].key == k
    requires !Has(t[1..], k) ==> rest == t[1..]
    ensures UniqueKeys(t) ==> rest == t[..0] + t[1..]
  {
    TailUnique(t);
    KeysCons(t);
    HasIffKey(t[1..], k);
  }

  /** Cutting `k`'s position out of the tail, behind the kept head, cuts it out of the whole table. */
  lemma DeleteTailSplice(t: Table, rest: Table, k: string)
    requires t != [] && t[0].key != k
    requires UniqueKeys(t[1..]) && Has(t[1..], k) ==>
               rest == t[1..][..Find(t[1..], k).value] + t[1..][Find(t[1..], k).value + 1..]
    ensures UniqueKeys(t) && Has(t, k) ==> [t[0]] + rest == t[..Find(t, k).value] + t[Find(t, k).value + 1..]
  {
    if UniqueKeys(t) && Has(t, k) {
      TailUnique(t);
      assert Find(t, k) == match Find(t[1..], k) case None => None case Some(i) => Some(i + 1);
      var i := Find(t[1..], k).value;
      assert rest == t[1..][..i] + t[1..][i + 1..];
      assert [t[0]] + t[1..][..i] == t[..i + 1];
      assert t[1..][i + 1..] == t[i + 2..];
    }
  }

  /** `Map.prototype.delete`. */
  function Delete(t: Table, k: string): (r: Table)
    ensures !Has(r, k)
    ensures forall k' :: k' != k ==> Get(r, k') == Get(t, k')
    ensures Keys(r) == Keys(t) - {k}
    ensures forall x :: x in r ==> x in t && x.key != k
    ensures !Has(t, k) ==> r == t
    ensures UniqueKeys(t) ==> UniqueKeys(r)
    decreases |t|
  {
    if t == [] then []
    else
      var rest := Delete(t[1..], k);
      KeysCons(t);
      HasIffKey(t, k);
      HasIffKey(t[1..], k);
      if t[0].key == k then
        DeleteDropsHead(t, rest, k);
        rest
      else
        DeleteKeepsHead(t, rest, k);
        [t[0]] + rest
  }

  /**
   * With unique keys, deleting a present key cuts exactly its entry out of the
   * table: every other entry stays, in insertion order.
   */
  lemma {:induction false} DeleteKeepsOrder(t: Table, k: string)
    requires UniqueKeys(t) && Has(t, k)
    ensures Delete(t, k) == t[..Find(t, k).value] + t[Find(t, k).value + 1..]
    decreases |t|
  {
    TailUnique(t);
    if t[0].key == k {
      DeleteHeadSplice(t, Delete(t[1..], k), k);
    } else {
      KeysCons(t);
      HasIffKey(t, k);
      HasIffKey(t[1..], k);
      DeleteKeepsOrder(t[1..], k);
      DeleteTailSplice(t, Delete(t[1..], k), k);
    }
  }

  /** Deleting a present key from a registry with unique keys removes exactly one entry. */
  lemma {:induction false} DeleteSize(t: Table, k: string)
    requires UniqueKeys(t)
    ensures |Delete(t, k)| == if Has(t, k) then |t| - 1 else |t|
    decreases |t|
  {
    if t != [] {
      DeleteSize(t[1..], k);
      KeysCons(t);
      HasIffKey(t, k);
      HasIffKey(t[1..], k);
      if t[0].key == k {
        assert k !in Keys(t[1..]);
      }
    }
  }

  lemma DeleteKeepsWellFormed(t: Table, k: string)
    requires WellFormed(t)
    ensures WellFormed(Delete(t, k))
  {
  }

  /** Ids that differ only in case address one and the same entry. */
  lemma CaseInsensitiveLookup(t: Table, a: string, b: string)
    requires SameIgnoringCase(a, b)
    ensures Get(t, Lower(a)) == Get(t, Lower(b))
  {
    SameKeyIffSameIgnoringCase(a, b);
  }

  /** Deleting the key of an entry appended under a fresh key gives back the original table. */
  lemma {:induction false} DeleteUndoesAppend(t: Table, k: string, e: Entity)
    requires !Has(t, k)
    ensures Delete(t + [Entry(k, e)], k) == t
    decreases |t|
  {
    var u := t + [Entry(k, e)];
    if t == [] {
      assert u[1..] == [];
    } else {
      assert u[0] == t[0] && u[1..] == t[1..] + [Entry(k, e)];
      assert t[0].key != k;
      assert !Has(t[1..], k) by {
        forall j | 0 <= j < |t[1..]| ensures t[1..][j].key != k {
          assert t[1..][j] == t[j + 1];
        }
      }
      DeleteUndoesAppend(t[1..], k, e);
      assert [t[0]] + t[1..] == t;
    }
  }
}

=== FILE: saving.dfy ===
/**
 * `createConfig`, `buildConfigObj` and `save`: the current registries written
 * back as a configuration document and handed to the file or the save handler.
 */
module Saving {

  import opened Wrappers
  import opened Errors
  import opened Config
  import opened Entities
  import opened Registry
  import opened Connections
  import opened Factories
  import opened Maestro
  import opened Loading

  /** An entity's `serializeState(formatSettings)`, supplied by the entity's own code. */
  type Serializer = (Entity, FormatSettings) -> string

  /** `createConfig`: the entity's serialized state, tagged with the instance's format settings. */
  function CreateConfig(st: State, ser: Serializer, e: Entity): EntityConfig {
    EntityConfig(Serialized(ser(e, st.config.formatSettings)), Some(st.config.formatSettings))
  }

  function ConfigsOf(st: State, ser: Serializer, t: Table): (r: seq<EntityConfig>)
    ensures |r| == |t|
    ensures forall i :: 0 <= i < |t| ==> r[i] == CreateConfig(st, ser, t[i].entity)
  {
    seq(|t|, i requires 0 <= i < |t| => CreateConfig(st, ser, t[i].entity))
  }

  /**
   * `buildConfigObj`: the current document's identity, settings and factories,
   * one serialized entry per registered emitter and chronicler in registration
   * order, and no connections.
   */
  function BuildConfigObj(st: State, ser: Serializer): (doc: MaestroConfig)
    ensures doc.id == st.config.id && doc.name == st.config.name && doc.description == st.config.description
    ensures doc.factories == st.config.factories && doc.formatSettings == st.config.formatSettings
    ensures doc.connections == []
    ensures |doc.emitters| == |st.emitters| && |doc.chroniclers| == |st.chroniclers|
    ensures forall i :: 0 <= i < |st.emitters| ==>
              doc.emitters[i].config == Serialized(ser(st.emitters[i].entity, st.config.formatSettings))
    ensures forall i :: 0 <= i < |st.chroniclers| ==>
              doc.chroniclers[i].config == Serialized(ser(st.chroniclers[i].entity, st.config.formatSettings))
    ensures forall c :: c in doc.emitters + doc.chroniclers ==> c.formatSettings == Some(st.config.formatSettings)
  {
    MaestroConfig(st.config.id, st.config.name, st.config.description, st.config.factories,
                  ConfigsOf(st, ser, st.emitters), ConfigsOf(st, ser, st.chroniclers), [],
                  st.config.formatSettings)
  }

  /** Where a saved document goes. */
  datatype Sink = FileSink(path: string, doc: MaestroConfig) | HandlerSink(doc: MaestroConfig)

  /**
   * `save`: the built document goes to the file path if usable, else to the
   * save handler; with neither, the call rejects before serializing anything.
   */
  function Save(st: State, ser: Serializer): (r: Run<Sink>)
    ensures r.out.Failure? <==> !HasPath(st) && !st.saveHandler
    ensures r.out.Failure? ==> r == Run(st, Failure(SinkMissing))
    ensures HasPath(st) ==> r.out == Success(FileSink(st.path.value, BuildConfigObj(st, ser)))
    ensures !HasPath(st) && st.saveHandler ==> r.out == Success(HandlerSink(BuildConfigObj(st, ser)))
    ensures r.out.Success? ==> r.state == st.(calls := r.state.calls)
    ensures r.out.Success? ==> r.state.calls == st.calls + FanOut(Registered(st), SerializeCall)
  {
    if HasPath(st) || st.saveHandler then
      var doc := BuildConfigObj(st, ser);
      var s1 := st.(calls := st.calls + FanOut(Registered(st), SerializeCall));
      if HasPath(st) then Run(s1, Success(FileSink(st.path.value, doc)))
      else Run(s1, Success(HandlerSink(doc)))
    else Run(st, Failure(SinkMissing))
  }

  /** Saving asks each registered entity (identities being distinct) for its state exactly once. */
  lemma SaveSerializesEachOnce(st: State, ser: Serializer, e: Entity)
    requires HasPath(st) || st.saveHandler
    requires DistinctOids(Registered(st)) && e in Registered(st)
    ensures Save(st, ser).state.calls[Call(e.oid, Serialize)] == st.calls[Call(e.oid, Serialize)] + 1
  {
    ServiceCallsAreAimed();
    FanOutReachesEachOnce(Registered(st), SerializeCall, e, Call(e.oid, Serialize));
  }

  /**
   * An instance built from a file that could not be read, saved before any
   * load, writes back exactly the default document it fell back to.
   */
  lemma FreshDefaultRoundTrip(opts: Options, uuid: string, provider: Provider, ser: Serializer)
    requires opts.config.FilePath? && opts.config.file != ""
    ensures var st := Create(opts, None, uuid, provider);
            Save(st, ser).out == Success(FileSink(opts.config.file, DefaultDocument(uuid)))
  {
  }

  /**
   * Saving then loading back from the file it wrote adopts a document with the
   * same identity, settings and factories, and, connections not being
   * written, leaves no connection handles tracked.
   */
  lemma SaveThenLoadDropsConnections(st: State, ser: Serializer, w: World)
    requires HasPath(st)
    requires Load(Save(st, ser).state, w.(fileRead := Some(Save(st, ser).out.value.doc))).out.Success?
    ensures var r := Load(Save(st, ser).state, w.(fileRead := Some(Save(st, ser).out.value.doc))).state;
            && r.config.id == st.config.id && r.config.name == st.config.name
            && r.config.description == st.config.description
            && r.config.formatSettings == st.config.formatSettings && r.config.factories == st.config.factories
            && r.config.connections == [] && r.wiring.tracked == {}
  {
  }

  /**
   * Chroniclers are saved as serialized state, which loading refuses: an
   * instance with any chronicler registered cannot load back the file it saved.
   */
  lemma SavedChroniclersBlockReload(st: State, ser: Serializer, w: World)
    requires HasPath(st) && |st.chroniclers| > 0
    ensures Load(Save(st, ser).state, w.(fileRead := Some(Save(st, ser).out.value.doc))).out.Failure?
  {
  }

  /**
   * A file path given as the empty string counts as no path, and the handlers
   * are ignored in file mode, so both `load` and `save` reject.
   */
  lemma EmptyPathRejectsLoadAndSave(opts: Options, fileRead: Option<MaestroConfig>, uuid: string,
                                    provider: Provider, w: World, ser: Serializer)
    requires opts.config == FilePath("")
    ensures var st := Create(opts, fileRead, uuid, provider);
            Load(st, w).out == Failure(SourceMissing) && Save(st, ser).out == Failure(SinkMissing)
  {
  }

  /**
   * Saving right after a successful load (under the conditions of
   * `LoadRegistersEach`) writes the loaded document's identity, settings and
   * factories, one entry per declared emitter and chronicler, and no
   * connections.
   */
  lemma SaveAfterLoadMirrorsDocument(st: State, w: World, ser: Serializer)
    requires Fetch(st, w).Success?
    requires CatalogDisposable(st.provider.emitters) && CatalogDisposable(st.provider.chroniclers)
    requires ModulesDisposable(w.modules)
    requires DistinctDeclared(EmitterKind, Fetch(st, w).value.emitters, st.config.formatSettings, w.decode)
    requires DistinctDeclared(ChroniclerKind, Fetch(st, w).value.chroniclers, st.config.formatSettings, map[])
    ensures var doc := Fetch(st, w).value;
            var saved := BuildConfigObj(Load(st, w).state, ser);
            Load(st, w).out.Success? ==>
            && saved.id == doc.id && saved.name == doc.name && saved.description == doc.description
            && saved.formatSettings == doc.formatSettings && saved.factories == doc.factories
            && |saved.emitters| == |doc.emitters| && |saved.chroniclers| == |doc.chroniclers|
            && saved.connections == []
  {
    LoadRegistersEach(st, w);
  }
}

=== FILE: wrappers.dfy ===
/** Option and Result, the failure-carrying wrappers every other module uses. */
module Wrappers {

  datatype Option<+T> = None | Some(value: T) {

    /** The wrapped value, or `default` when there is none (the `x || y` fallback of the source). */
    function GetOr(default: T): T {
      match this
      case Some(v) => v
      case None => default
    }
  }

  datatype Result<+T, +E> = Success(value: T) | Failure(error: E)
}
